=== FILE: README.md ===
# JLabGym core, modelled in Dafny

JLabGym connects Java agent programs to the Lab Recruits game and runs testing
AIs against its levels. This project models four pieces of that system:

- `LabRecruitsEnvironment`, the agent-side end of the socket session with the
  game. Its operations are translated into requests, and the move command is
  clamped to the agent's speed. Each operation does one write and one read.
  Its outcome covers an I/O failure, a missing world, and a refused or failed
  disconnect.
- `QArrayList`, the list helper with query-style combinators. These are
  map, filter, all/any, first/last, reverse, stable order-by, max/min and
  distinctness.
- `LabRecruitsConfig`, the game configuration. It covers the defaults, the
  level-path builder and the two append-only link lists.
- The sequential logic of `ContestRunner.call`. It covers:
  - the CSV report rows and the report file path
  - the success flag
  - the return-code decision
  - the order of cleanup

The model is written in values, not objects. Each Java method becomes a
function from the state before the call to the state after it and how the call
ended (`Outcome`: a value, or a thrown exception). Other programs supply some
inputs, such as the socket, the game, the clock, the file system and the
contestant's AI. These inputs are parameters.

Files, one module each:

| file | module | models |
|---|---|---|
| `lang.dfy` | `Lang` | `null` (`Option`), exceptions, Java `int`, `Pair<String,String>` |
| `geometry.dfy` | `Geometry` | `Vec3` over the reals and the length function |
| `paths.dfy` | `Paths` | the JDK's Unix `Paths.get`, normalisation and `toAbsolutePath` |
| `config.dfy` | `Config` | `LabRecruitsConfig` |
| `environment.dfy` | `Environment` | `LabRecruitsEnvironment` |
| `qlist.dfy` | `QList` | `QArrayList` |
| `decimal.dfy` | `Decimal` | `"" + long` (decimal text of a number) |
| `contest.dfy` | `Contest` | `ContestRunner.call` |

Three modelling choices matter when you read the contracts:

- The socket is an oracle. Each exchange receives a `Reply`, which is one of three:
  - the write fails
  - the read fails
  - a value of the requested response type arrives

  The environment keeps the trace of socket events. Every operation keeps it
  `Paired`: each read directly follows the write of a request and reads that
  request's response type.
- Vector length is a parameter `len` constrained by `IsLength`: it is
  non-negative and its square is the dot product. This makes it the Euclidean
  length over the reals, without a square-root function.
- `ContestRunner` calls `aiThread.run()`. The worker therefore runs to its end
  on the runner's own thread and then interrupts that same thread.
  `CallAsWritten` models this. `CallWithStart` models the same runner with the
  worker started on its own thread (see Findings).

Where the code does less than its own comments suggest, the model follows the
code:

- The javadoc of `close()` says "Close the socket and connection"
  (`LabRecruitsEnvironment.java:211`). The code (lines 215-217) closes the
  socket only when the game acknowledges the disconnect. An I/O failure
  returns `false` and leaves the socket open. A `null` acknowledgement fails
  with a `NullPointerException` when it is unboxed.
- `LabRecruitsEnvironment` keeps no session state besides the socket. No
  operation checks whether the world was loaded or the connection closed, so
  calls after `close` are sent as usual, and a second `close` sends a second
  disconnect request.
- The cleanup in `call()` is the `finally` at `ContestRunner.java:143-146`. It
  belongs to the `try` that starts at line 129, while `aiThread.run()` is at
  line 127, outside it. So a throwable that escapes the worker escapes
  `call()` with no cleanup at all.
- The comments at `ContestRunner.java:130-136` ("wait for the time budget",
  "Kill the AI-thread") describe a worker on its own thread. As written, the
  time budget is never enforced (see Findings).

## Model

| member | source | states |
|---|---|---|
| Environment.ExchangeKeepsPaired | src/main/java/environments/LabRecruitsEnvironment.java:245-248 | one write followed by at most one read of that request's response type keeps the socket trace paired |
| Environment.SendPackage | src/main/java/environments/LabRecruitsEnvironment.java:245-248 | exactly one write then one read typed by the request; a failed write or read is an `IOException`, and otherwise the delivered value is returned; pairing is preserved; nothing but the trace changes |
| Geometry.ScaledToLength | src/main/java/environments/LabRecruitsEnvironment.java:142-143 | normalising a non-zero vector and scaling it by `s >= 0` gives a vector of length exactly `s` |
| Environment.MoveTarget | src/main/java/environments/LabRecruitsEnvironment.java:137-145 | a target within `AGENTSPEED` is kept unchanged; a farther one is replaced by a point at distance exactly `AGENTSPEED` along a positive multiple of the original direction |
| Environment.MoveTargetIdempotent | src/main/java/environments/LabRecruitsEnvironment.java:137-145 | the clamped target is always within reach, and clamping it again changes nothing |
| Environment.Translate | src/main/java/environments/LabRecruitsEnvironment.java:126-152 | load-world becomes the initialisation request carrying the config. Observe becomes do-nothing for the invoker. Move-toward becomes a move to the clamped target with jump false, or an NPE/class-cast failure for a bad argument. Interact becomes an interact command on the target. `IllegalArgumentException` is thrown exactly when the tag is unknown |
| Environment.TranslateIsInvertible | src/main/java/environments/LabRecruitsEnvironment.java:126-152 | each produced request traces back to the command tag it came from and carries the invoker (or the config) |
| Environment.SendCommand | src/main/java/environments/LabRecruitsEnvironment.java:121-161 | a translation failure propagates with nothing written. An I/O failure yields `null` after the exchange. The trace grows by exactly the exchange of the translated request. A delivered observation is returned as its world model and kept as the last observation. A delivered load-world answer is returned as the mesh, a `null` mesh staying `null`, and leaves the kept observation alone. Config, socket and mesh are untouched, and pairing is preserved |
| Environment.LoadWorld | src/main/java/environments/LabRecruitsEnvironment.java:69-74 | `Iv4xrError` exactly when no mesh comes back, with the mesh left as it was. Otherwise the navigable mesh is set from the received mesh |
| Environment.Connect | src/main/java/environments/LabRecruitsEnvironment.java:49-53 | a new environment has an open socket, the given config and a paired trace holding only the load-world exchange, and no observation yet. It succeeds exactly when a mesh is delivered, and then stores that mesh; otherwise it throws `Iv4xrError` |
| Environment.Observe | src/main/java/environments/LabRecruitsEnvironment.java:130-131 | observing never throws and sends exactly a do-nothing command for the agent. It returns the world model of the delivered observation and keeps that observation; on an I/O failure it returns `null` and keeps the old one. Config, socket and mesh are unchanged |
| Environment.MoveToward | src/main/java/environments/LabRecruitsEnvironment.java:133-147 | exactly one move command is exchanged: for the agent, with jump false, toward the clamped `targetLocation` (`MoveTarget`), so to a point at most `AGENTSPEED` from the agent's location. It returns the world model of the delivered observation and keeps that observation; on an I/O failure it returns `null` and keeps the old one. Config, socket and mesh are unchanged |
| Environment.Interact | src/main/java/environments/LabRecruitsEnvironment.java:107-109 | sends exactly an interact command naming the target; the interaction type is ignored. It returns the world model of the delivered observation and keeps that observation; on an I/O failure it returns `null` and keeps the old one. Config, socket and mesh are unchanged |
| Environment.SimulationSwitch | src/main/java/environments/LabRecruitsEnvironment.java:166-189 | one boolean exchange; the game's answer is passed on as it is, and an I/O failure gives `false` |
| Environment.StartSimulationCall | src/main/java/environments/LabRecruitsEnvironment.java:166-175 | the start request is exchanged once and nothing else changes; a delivered answer is returned as it is, and an I/O failure gives `false` |
| Environment.PauseSimulationCall | src/main/java/environments/LabRecruitsEnvironment.java:180-189 | the pause request is exchanged once and nothing else changes; a delivered answer is returned as it is, and an I/O failure gives `false` |
| Environment.UpdateHazards | src/main/java/environments/LabRecruitsEnvironment.java:195-196 | always throws `UnsupportedOperationException` and touches nothing |
| Environment.Close | src/main/java/environments/LabRecruitsEnvironment.java:213-229 | returns the disconnect acknowledgement. The socket is closed only when the acknowledgement is true. An I/O failure gives `false` with the socket left open. A `null` acknowledgement is an NPE. Pairing is preserved |
| Environment.CloseAndThrow | src/main/java/environments/LabRecruitsEnvironment.java:235-238 | throws `InterruptedException` exactly when `close()` returns false and completes exactly when it returns true; an exception from `close()` (the NPE of a null acknowledgement) propagates as it is |
| QList.FromPrimitives | src/main/java/helperclasses/QArrayList.java:64-70 | the array's values in order, one per element |
| QList.Select | src/main/java/helperclasses/QArrayList.java:79-91 | same length, element `i` is `func(this[i])` |
| QList.Where | src/main/java/helperclasses/QArrayList.java:99-111 | equals the reference filter `Filter`. `Filter`'s contract states that every kept element satisfies the predicate and that each satisfying element keeps its multiplicity. The original order comes from `Filter`'s definition, which `FilterAppend` characterises |
| QList.FilterAppend | src/main/java/helperclasses/QArrayList.java:99-111 | filtering distributes over concatenation: filtering two pieces and joining the results equals filtering the joined list, so the kept elements stay in their original order |
| QList.AllTrue | src/main/java/helperclasses/QArrayList.java:119-128 | true iff every element satisfies the predicate (true on empty) |
| QList.AnyTrue | src/main/java/helperclasses/QArrayList.java:136-145 | true iff some element satisfies the predicate (false on empty) |
| QList.Contains | src/main/java/helperclasses/QArrayList.java:222-227 | the same iff as `anyTrue`, so the two always agree |
| QList.Max | src/main/java/helperclasses/QArrayList.java:154-156 | `NoSuchElementException` iff empty; otherwise a key that occurs and is at least every key |
| QList.Min | src/main/java/helperclasses/QArrayList.java:165-169 | `NoSuchElementException` iff empty; otherwise a key that occurs and is at most every key |
| QList.Last | src/main/java/helperclasses/QArrayList.java:174-182 | `IndexOutOfBoundsException` iff empty; otherwise the element at `size - 1` |
| QList.First | src/main/java/helperclasses/QArrayList.java:187-195 | `IndexOutOfBoundsException` iff empty; otherwise the element at 0 |
| QList.FirstOfReverseIsLast | src/main/java/helperclasses/QArrayList.java:174-195 | `first` of the reversed list is `last` of the list, including the empty case |
| QList.Reversed | src/main/java/helperclasses/QArrayList.java:234-244 | equals the reference reversal `Reverse`, whose contract states the same length and element `i` is `this[n-1-i]` |
| QList.ReverseInvolution | src/main/java/helperclasses/QArrayList.java:234-244 | reversing twice gives the list back |
| QList.InsertSorted | src/main/java/helperclasses/QArrayList.java:204-214 | inserting into a key-sorted list keeps it sorted |
| QList.InsertWithKey | src/main/java/helperclasses/QArrayList.java:204-214 | inserting `x` adds it in front of the elements that share its key and changes no other key's elements |
| QList.OrderBy | src/main/java/helperclasses/QArrayList.java:204-214 | a permutation of the input, non-decreasing by key, where the elements of each key keep their original order |
| QList.StableSortIsUnique | src/main/java/helperclasses/QArrayList.java:269-272 | two key-sorted lists with the same elements per key, in the same order, are equal: comparing by key alone leaves a stable sort exactly one result |
| QList.OrderByIsTheStableSort | src/main/java/helperclasses/QArrayList.java:204-214 | any stable sort by key of the list (as `Collections.sort` is) equals `OrderBy` |
| QList.Distinct | src/main/java/helperclasses/QArrayList.java:246-248 | the distinct stream has the same elements as the list, no duplicates, and the list's length exactly when the list has no duplicates |
| QList.IsDistinct | src/main/java/helperclasses/QArrayList.java:246-248 | true iff no two positions hold equal elements |
| Config.DefaultValues | src/main/java/environments/LabRecruitsConfig.java:25-90 | host `localhost`, port 8053, seed 1, empty level path and name, empty link lists |
| Paths.Normalize | src/main/java/environments/LabRecruitsConfig.java:110 | `InvalidPathException` iff the text holds NUL (the platform-encoding check is left out); otherwise a path with no doubled separator and no trailing one, with the same non-separator characters |
| Paths.NormalizeIdempotent | src/main/java/environments/LabRecruitsConfig.java:110 | normalising a normalised path changes nothing |
| Paths.Get | src/main/java/environments/LabRecruitsConfig.java:110 | joining folder and file throws `InvalidPathException` iff either holds NUL (the platform-encoding check is left out). Otherwise it gives a normal path, absolute exactly when the first non-empty part is |
| Paths.GetKeepsParts | src/main/java/environments/LabRecruitsConfig.java:110 | up to separators, the joined path is the folder followed by the file name: no character of either is lost |
| Paths.GetJoinsNormal | src/main/java/environments/LabRecruitsConfig.java:110 | a normal folder other than the root, joined with a normal relative name, gives exactly `folder/name` |
| Paths.ToAbsolute | src/main/java/environments/LabRecruitsConfig.java:110 | the result is absolute and normal, and an absolute path is kept as it is. A relative path becomes the working directory, a separator and the path (just `/path` when the working directory is the root), and the empty path becomes the working directory |
| Paths.ToAbsoluteKeepsParts | src/main/java/environments/LabRecruitsConfig.java:110 | up to separators, the absolute path is the working directory (unless the path was absolute) followed by the path |
| Paths.AbsoluteJoinUnseparated | src/main/java/environments/LabRecruitsConfig.java:110 | up to separators, the absolute form of `folder/file` is the working directory (when the join is relative), the folder, then the file |
| Paths.AbsoluteFileEndsWithName | src/main/java/environments/LabRecruitsConfig.java:110 | the absolute path of a separator-free file name in any folder ends with `/` and that name |
| Config.UseLevel | src/main/java/environments/LabRecruitsConfig.java:109-115 | a NUL in the folder or name gives `InvalidPathException`, and a rejection by the path check is rethrown. In both cases nothing is assigned. Otherwise the level name is set, and every other field is unchanged. The level path is the absolute, normal form of `levelFolder/levelName.csv` (`Paths.AbsoluteJoin`) |
| Config.UseLevelPointsAtLevelFile | src/main/java/environments/LabRecruitsConfig.java:110-113 | the stored level path ends with `/levelName.csv` |
| Config.UseLevelPath | src/main/java/environments/LabRecruitsConfig.java:109-115 | for a normal folder and a name without a separator, the level path character for character. It is `/name.csv` in the root folder and `folder/name.csv` in another absolute folder. In a relative folder it is `cwd/folder/name.csv`, and with no folder it is `cwd/name.csv` |
| Config.UseLevelKeepsFolder | src/main/java/environments/LabRecruitsConfig.java:109-115 | for any folder, up to separators the level path is the working directory, the folder, then `levelName.csv`. The working directory is left out when the folder is absolute, or, with no folder, when the file name is |
| Config.NewInFolder | src/main/java/environments/LabRecruitsConfig.java:105-107 | fails exactly as `useLevel` does: `InvalidPathException` on a NUL, otherwise the path check's rejection. Otherwise it is the default configuration with the level name set and the level path the absolute form of `levelFolder/levelName.csv`; no other field differs from the defaults |
| Config.New | src/main/java/environments/LabRecruitsConfig.java:97-99 | the same as the two-argument constructor with the platform's level folder |
| Config.AddSwitchToDoorLinks | src/main/java/environments/LabRecruitsConfig.java:121-124 | the old add-links followed by the new ones in order; remove-links and every other field unchanged |
| Config.RemoveSwitchToDoorLinks | src/main/java/environments/LabRecruitsConfig.java:132-135 | the old remove-links followed by the new ones in order; add-links and every other field unchanged |
| Config.AddLinksCompose | src/main/java/environments/LabRecruitsConfig.java:121-124 | two additions equal one addition of both lists |
| Config.AddRemoveCommute | src/main/java/environments/LabRecruitsConfig.java:121-135 | adding and removing links commute |
| Decimal.IntToString | src/main/java/gameTestingContest/ContestRunner.java:105 | a minus sign exactly for negatives, then canonical digits with no leading zero |
| Decimal.ParseIntToString | src/main/java/gameTestingContest/ContestRunner.java:105 | parsing the decimal text gives the number back |
| Decimal.IntToStringInjective | src/main/java/gameTestingContest/ContestRunner.java:105 | different runtimes have different texts |
| Contest.PairRows | src/main/java/gameTestingContest/ContestRunner.java:107-110 | one two-field row `[fst, snd]` per pair, in iteration order |
| Contest.ReportRows | src/main/java/gameTestingContest/ContestRunner.java:104-110 | the first row holds only the runtime in decimal, then one row per pair, so `1 + n` rows |
| Contest.ParseReportInverts | src/main/java/gameTestingContest/ContestRunner.java:104-110 | reading the rows back recovers exactly the runtime and the pairs |
| Contest.ReportRowsInjective | src/main/java/gameTestingContest/ContestRunner.java:104-110 | different runtimes or pair lists give different reports |
| Contest.EnumerationLength | src/main/java/gameTestingContest/ContestRunner.java:107 | iterating a set visits as many pairs as the set holds |
| Contest.ReportCoversSet | src/main/java/gameTestingContest/ContestRunner.java:100-110 | the report has one row more than the set has pairs, and a pair is in the reported set iff its row is in the report |
| Contest.ReportPath | src/main/java/gameTestingContest/ContestRunner.java:112-113 | the path starts with the report directory and separator and ends with `levelName.csv`, with `report_` between |
| Contest.ReportLevelNameInverts | src/main/java/gameTestingContest/ContestRunner.java:112-113 | the level name can be read back from the report path |
| Contest.ReportPathInjective | src/main/java/gameTestingContest/ContestRunner.java:112-113 | two levels never share a report file in the same directory |
| Contest.Worker | src/main/java/gameTestingContest/ContestRunner.java:96-126 | the flag is set iff the AI returned and the export completed. An export of the report rows to the report path is attempted iff the AI returned. A factory failure escapes as it is. An `Exception` from the AI or the export is swallowed, while an `Error` from either escapes as it is |
| Contest.SleepFor | src/main/java/gameTestingContest/ContestRunner.java:131-135 | a negative duration throws `IllegalArgumentException` before anything else. An interrupt already pending, or one arriving before the duration ends, cuts the sleep short. Otherwise the sleep completes |
| Contest.DefaultBudgetIsOneMinute | src/main/java/gameTestingContest/ContestRunner.java:33 | without `--time` the runner waits 60000 ms for the AI |
| Contest.BudgetMillis | src/main/java/gameTestingContest/ContestRunner.java:131 | `timeBudget * 1000` in 32-bit arithmetic: exact for budgets up to 2147483 s, congruent modulo 2^32 otherwise |
| Contest.Classify | src/main/java/gameTestingContest/ContestRunner.java:128-142 | the code is 0 or -1, and 0 exactly when a wait was interrupted and the flag is set. A sleep that throws (a negative budget) propagates its exception. Two completed waits give -1, or the exception of an unsupported `Thread.stop`. Exceptions come only from the sleeps or the stop |
| Contest.Cleanup | src/main/java/gameTestingContest/ContestRunner.java:143-146 | the environment is closed first, then the server; an NPE from `close()` skips the server and replaces the outcome; otherwise the outcome stands |
| Contest.CallAsWritten | src/main/java/gameTestingContest/ContestRunner.java:127-148 | the printed code is the returned one, and a returned code is 0 or -1. An escaping throwable escapes `call()` with no cleanup. Otherwise the environment is closed first, and an NPE from that close replaces the outcome and skips the server. When the close succeeds, the server is closed too, on every path including the exceptional one. A negative budget then gives `IllegalArgumentException` from the first sleep. Otherwise the code is 0 exactly when the flag is set, whatever the AI's duration |
| Contest.CallWithStart | src/main/java/gameTestingContest/ContestRunner.java:127-148 | with the worker on its own thread: the returned code is 0 or -1. The environment is always closed first, and the server after it unless that close throws an NPE, which is then the outcome. A negative budget gives `IllegalArgumentException`. The decision comes at most budget + 10 s after start, and the code is 0 exactly when the flag is set and the worker finished before budget + 10 s |
| Contest.OverrunIsMinusOne | src/main/java/gameTestingContest/ContestRunner.java:128-146 | with the worker started, an AI that has not finished by budget + 10 s, or never finishes, is stopped; `call()` closes the environment and the server and returns and prints -1, whatever the AI would have reported |
| Contest.BudgetNotEnforced | src/main/java/gameTestingContest/ContestRunner.java:127-137 | as written, an AI that overruns budget + grace still gets code 0, decided only when it ends; with the worker started it does not |
| Contest.FiveSecondBudgetExample | src/main/java/gameTestingContest/ContestRunner.java:127-137 | with `--time 5` and an AI reporting after 30 s, the code is 0 as written and -1 with the worker started |

## Left out

- The socket transport, request serialisation and observation decoding (`SocketReaderWriter`) are not part of this model. Each exchange is a `Reply` oracle, and closing the socket is assumed to succeed.
- `W3DEnvironment`, the framework base class, is not part of this model. `observe` and `moveToward` are modelled as the `sendCommand_` calls they end in. Only the distinctness of the command-name constants matters, and their values here are stand-ins.
- `Observation.toWorldModel` and `LabRecruitsRawNavMesh.covertToMesh` are not part of this model. They are wrapped without interpretation (`WorldModel`, `NavMesh`).
- IEEE `float` arithmetic of `Vec3` is not modelled. Vectors are over the reals, and the length is a parameter.
- The float fields of `LabRecruitsConfig` (`agent_speed`, `npc_speed`, `fire_spread`, `jump_force`, `view_distance`, `light_intensity`) are not modelled. Nothing in the core reads them.
- `Util.verifyPath` is given as a verdict parameter. `Platform.LEVEL_PATH` and the JVM's working directory are given as parameters.
- `Config.UseLevel`: returns the updated configuration rather than the same object, so the fluent `return this` is not represented.
- `Config.AddSwitchToDoorLinks`: returns a new configuration rather than mutating and returning the receiver. The same holds for `Config.RemoveSwitchToDoorLinks`.
- The `QArrayList(ArrayList)` copy constructor is not modelled. Lists are values, so "the receiver is unchanged" holds by construction.
- QList.Where: the predicate is a total function, so a lambda that throws, or one that returns a `null` `Boolean` and fails when unboxed, is not modelled. The same holds for `QList.AllTrue`, `QList.AnyTrue`, `QList.Contains` and `QList.Select` (a throwing mapping function).
- Paths: only the JDK's Unix file system is modelled, with `/` as the only separator. On Windows, `Paths.get` uses `\` and drive letters, and `LabRecruitsTestServer.java:31-32` mentions Windows and Mac installs.
- Paths.Get: the check of `UnixPath.encode` is not modelled. That check throws `InvalidPathException` for characters the platform encoding (`sun.jnu.encoding`) cannot represent, such as a non-ASCII level name under a C/POSIX locale. So "fails iff NUL" holds only for names the platform encoding can represent. The same holds for Config.UseLevel, Config.NewInFolder and Config.New.
- QList.Max: keys are integers, where the source accepts any `Comparable` key type. The same holds for `QList.Min`.
- QList.OrderBy: keys are integers compared numerically, where the source accepts any `Comparable` key type.
- The threading of `ContestRunner` is not modelled: thread creation, `interrupt`, sleeping and `Thread.stop`. Instead, the worker's finishing time and the sleeps' interrupts are data, and `stopSupported` says whether the JVM still implements `Thread.stop`.
- `System.currentTimeMillis` is not modelled: the runtime is a parameter.
- Contest.Worker: the runtime is an unbounded integer, so a `long` overflow of `endTime - startTime` is not modelled.
- Contest.CallAsWritten: an AI that never returns keeps `call()` from ever returning. The model takes the AI's finishing time as a number, so that case is not represented.
- `CSVExport.exportToCSV` is not modelled. Its only role here is a verdict parameter (it writes the file or throws). CSV quoting of the fields is not modelled.
- `LabRecruitsTestServer` and `launchLabRecruits` (process spawning and waiting) are left out. The server's `close()` appears only as a cleanup step, since it catches its own interruption.
- Picocli option parsing, `main`, and the console lines of `call()` are left out, except the printed return code.
- `RawContestRunner`, `MyTestingAI` and the example drivers are left out. They are console and game demos.

## Findings

| source | as written | input that shows it | evidently intended | confidence | as-written member | corrected member |
|---|---|---|---|---|---|---|
| src/main/java/gameTestingContest/ContestRunner.java:127 | `aiThread.run()` runs the worker on the runner's own thread. The worker then interrupts that thread, so the budget sleep ends at once and the time budget is never enforced | `--time 5` with an AI that reports after 30 s (the runner's time-out tests use such an AI): code 0, decided only after 30 s | `aiThread.start()`: the runner decides within budget + 10 s and returns -1 for an AI that overruns both (Contest.OverrunIsMinusOne) | high; not executed | Contest.CallAsWritten | Contest.CallWithStart |

=== FILE: config.dfy ===
/**
  `LabRecruitsConfig`: the configuration sent to the Lab Recruits game when an
  environment connects. It names the host and port of the game, the level to
  load and where its definition file is, the random seed, and two lists of
  switch-to-door links to force into or out of the level.
 */
module Config {
  import opened Lang
  import Paths

  const DEFAULT_HOST: string := "localhost"
  const DEFAULT_PORT: int32 := 8053
  const DEFAULT_SEED: int32 := 1
  const LEVEL_FILE_EXTENSION: string := ".csv"

  datatype Config = Config(
    host: string,
    port: int32,
    seed: int32,
    levelPath: string,
    levelName: string,
    addLinks: seq<Pair>,
    removeLinks: seq<Pair>)

  /** The no-argument constructor: every field at its documented default. */
  function Default(): Config {
    Config(DEFAULT_HOST, DEFAULT_PORT, DEFAULT_SEED, "", "", [], [])
  }

  /** The documented defaults, field by field. */
  lemma DefaultValues()
    ensures Default().host == "localhost" && Default().port == 8053 && Default().seed == 1
    ensures Default().levelPath == "" && Default().levelName == ""
    ensures Default().addLinks == [] && Default().removeLinks == []
  {
  }

  /**
    `c` and `d` agree on every field except possibly the level name and path.
   */
  predicate SameExceptLevel(c: Config, d: Config) {
    c.host == d.host && c.port == d.port && c.seed == d.seed
    && c.addLinks == d.addLinks && c.removeLinks == d.removeLinks
  }

  /**
    `useLevel`: computes the absolute path of `levelFolder/levelName.csv`
    (`cwd` is the working directory of the JVM), asks `Util.verifyPath` about
    it (its verdict is the oracle `verdict`: `None` when it returns, the
    exception it raises otherwise), and only then assigns the level path and
    name.
   */
  function UseLevel(c: Config, levelName: string, levelFolder: string, cwd: string,
                    verdict: Option<Exception>): (r: Outcome<Config>)
    requires Paths.IsAbsolute(cwd) && Paths.IsNormal(cwd)
    ensures (Paths.NUL in levelFolder || Paths.NUL in levelName) ==> r == Thrown(InvalidPathException)
    ensures (Paths.NUL !in levelFolder && Paths.NUL !in levelName && verdict.Some?) ==>
              r == Thrown(verdict.value)
    ensures r.Normal? <==> Paths.NUL !in levelFolder && Paths.NUL !in levelName && verdict.None?
    ensures r.Normal? ==> r.value.levelName == levelName && SameExceptLevel(c, r.value)
    ensures r.Normal? ==> Paths.IsAbsolute(r.value.levelPath) && Paths.IsNormal(r.value.levelPath)
    ensures r.Normal? ==>
              r.value.levelPath == Paths.AbsoluteJoin(cwd, levelFolder, levelName + LEVEL_FILE_EXTENSION)
  {
    var file := levelName + LEVEL_FILE_EXTENSION;
    assert Paths.NUL in file <==> Paths.NUL in levelName;
    match Paths.Get(levelFolder, file)
    case Thrown(e) => Thrown(e)
    case Normal(p) =>
      var fullPath := Paths.ToAbsolute(cwd, p);
      if verdict.Some? then Thrown(verdict.value)
      else Normal(c.(levelPath := fullPath, levelName := levelName))
  }

  /**
    When the level name holds no separator, the level path ends with
    `/levelName.csv`: the file that `useLevel` points at is the named level.
   */
  lemma UseLevelPointsAtLevelFile(c: Config, levelName: string, levelFolder: string, cwd: string)
    requires Paths.IsAbsolute(cwd) && Paths.IsNormal(cwd)
    requires Paths.SEPARATOR !in levelName
    requires Paths.NUL !in levelFolder && Paths.NUL !in levelName
    ensures UseLevel(c, levelName, levelFolder, cwd, None).Normal?
    ensures Paths.EndsWith(UseLevel(c, levelName, levelFolder, cwd, None).value.levelPath,
                           "/" + levelName + ".csv")
  {
    var file := levelName + LEVEL_FILE_EXTENSION;
    assert Paths.SEPARATOR !in file;
    Paths.AbsoluteFileEndsWithName(cwd, levelFolder, file);
    assert [Paths.SEPARATOR] + file == "/" + levelName + ".csv";
  }

  /**
    The level path character for character, when the folder is written in
    normal form and the level name holds no separator: the folder (resolved
    against `cwd` when it is relative), a separator, and `levelName.csv`.
   */
  lemma UseLevelPath(c: Config, levelName: string, levelFolder: string, cwd: string)
    requires Paths.IsAbsolute(cwd) && Paths.IsNormal(cwd)
    requires Paths.IsNormal(levelFolder)
    requires Paths.SEPARATOR !in levelName
    requires Paths.NUL !in levelFolder && Paths.NUL !in levelName
    ensures UseLevel(c, levelName, levelFolder, cwd, None).Normal?
    ensures var path := UseLevel(c, levelName, levelFolder, cwd, None).value.levelPath;
      var base := if cwd == "/" then "" else cwd;
      levelFolder == "" ==> path == base + "/" + (levelName + ".csv")
    ensures var path := UseLevel(c, levelName, levelFolder, cwd, None).value.levelPath;
      levelFolder == "/" ==> path == "/" + (levelName + ".csv")
    ensures var path := UseLevel(c, levelName, levelFolder, cwd, None).value.levelPath;
      Paths.IsAbsolute(levelFolder) && levelFolder != "/" ==>
        path == levelFolder + "/" + (levelName + ".csv")
    ensures var path := UseLevel(c, levelName, levelFolder, cwd, None).value.levelPath;
      var base := if cwd == "/" then "" else cwd;
      levelFolder != "" && !Paths.IsAbsolute(levelFolder) ==>
        path == base + "/" + levelFolder + "/" + (levelName + ".csv")
  {
    var file := levelName + LEVEL_FILE_EXTENSION;
    assert Paths.SEPARATOR !in file;
    assert "/" == [Paths.SEPARATOR];
    var r := UseLevel(c, levelName, levelFolder, cwd, None);
    assert r.Normal? && r.value.levelPath == Paths.AbsoluteJoin(cwd, levelFolder, file);
    if levelFolder == "" {
      Paths.AbsoluteJoinEmptyFolder(cwd, file);
    } else if levelFolder == "/" {
      Paths.AbsoluteJoinRootFolder(cwd, file);
    } else if Paths.IsAbsolute(levelFolder) {
      Paths.AbsoluteJoinAbsoluteFolder(cwd, levelFolder, file);
    } else {
      Paths.AbsoluteJoinRelativeFolder(cwd, levelFolder, file);
    }
  }

  /**
    For any folder, normal or not, nothing of it is lost: up to separators
    the level path is the working directory (unless the folder, or for an
    empty folder the file name, is absolute), the folder, then
    `levelName.csv`.
   */
  lemma UseLevelKeepsFolder(c: Config, levelName: string, levelFolder: string, cwd: string)
    requires Paths.IsAbsolute(cwd) && Paths.IsNormal(cwd)
    requires Paths.NUL !in levelFolder && Paths.NUL !in levelName
    ensures UseLevel(c, levelName, levelFolder, cwd, None).Normal?
    ensures var file := levelName + ".csv";
      var anchored := Paths.IsAbsolute(if levelFolder == "" then file else levelFolder);
      Paths.Unseparated(UseLevel(c, levelName, levelFolder, cwd, None).value.levelPath)
        == (if anchored then "" else Paths.Unseparated(cwd))
           + Paths.Unseparated(levelFolder) + Paths.Unseparated(file)
  {
    var file := levelName + LEVEL_FILE_EXTENSION;
    assert Paths.NUL !in file;
    Paths.AbsoluteJoinUnseparated(cwd, levelFolder, file);
  }

  /**
    `new LabRecruitsConfig(levelName, levelFolder)`: the defaults, then
    `useLevel`, so it fails exactly as `useLevel` does and otherwise points at
    the level file inside `levelFolder`.
   */
  function NewInFolder(levelName: string, levelFolder: string, cwd: string,
                       verdict: Option<Exception>): (r: Outcome<Config>)
    requires Paths.IsAbsolute(cwd) && Paths.IsNormal(cwd)
    ensures (Paths.NUL in levelFolder || Paths.NUL in levelName) ==> r == Thrown(InvalidPathException)
    ensures (Paths.NUL !in levelFolder && Paths.NUL !in levelName && verdict.Some?) ==>
              r == Thrown(verdict.value)
    ensures r.Normal? <==> Paths.NUL !in levelFolder && Paths.NUL !in levelName && verdict.None?
    ensures r.Normal? ==> r.value.levelName == levelName && SameExceptLevel(Default(), r.value)
    ensures r.Normal? ==> Paths.IsAbsolute(r.value.levelPath) && Paths.IsNormal(r.value.levelPath)
    ensures r.Normal? ==>
              r.value.levelPath == Paths.AbsoluteJoin(cwd, levelFolder, levelName + LEVEL_FILE_EXTENSION)
  {
    UseLevel(Default(), levelName, levelFolder, cwd, verdict)
  }

  /**
    `new LabRecruitsConfig(levelName)`: the level folder is the platform's
    standard level directory `platformLevelPath` (`Platform.LEVEL_PATH`).
   */
  function New(levelName: string, platformLevelPath: string, cwd: string,
               verdict: Option<Exception>): (r: Outcome<Config>)
    requires Paths.IsAbsolute(cwd) && Paths.IsNormal(cwd)
    ensures r == NewInFolder(levelName, platformLevelPath, cwd, verdict)
  {
    UseLevel(Default(), levelName, platformLevelPath, cwd, verdict)
  }

  /**
    `addSwitchToDoorLinks`: appends `links`, in order, to the links to add.
    Nothing else changes.
   */
  function AddSwitchToDoorLinks(c: Config, links: seq<Pair>): (r: Config)
    ensures |r.addLinks| == |c.addLinks| + |links|
    ensures r.addLinks[..|c.addLinks|] == c.addLinks && r.addLinks[|c.addLinks|..] == links
    ensures r.removeLinks == c.removeLinks
    ensures r.host == c.host && r.port == c.port && r.seed == c.seed
    ensures r.levelPath == c.levelPath && r.levelName == c.levelName
  {
    c.(addLinks := c.addLinks + links)
  }

  /**
    `removeSwitchToDoorLinks`: appends `links`, in order, to the links to
    remove. Nothing else changes.
   */
  function RemoveSwitchToDoorLinks(c: Config, links: seq<Pair>): (r: Config)
    ensures |r.removeLinks| == |c.removeLinks| + |links|
    ensures r.removeLinks[..|c.removeLinks|] == c.removeLinks && r.removeLinks[|c.removeLinks|..] == links
    ensures r.addLinks == c.addLinks
    ensures r.host == c.host && r.port == c.port && r.seed == c.seed
    ensures r.levelPath == c.levelPath && r.levelName == c.levelName
  {
    c.(removeLinks := c.removeLinks + links)
  }

  /** Two calls of `addSwitchToDoorLinks` add the same links as one call with both lists. */
  lemma AddLinksCompose(c: Config, a: seq<Pair>, b: seq<Pair>)
    ensures AddSwitchToDoorLinks(AddSwitchToDoorLinks(c, a), b) == AddSwitchToDoorLinks(c, a + b)
  {
    assert c.addLinks + a + b == c.addLinks + (a + b);
  }

  /** Adding and removing links touch separate lists, so their order does not matter. */
  lemma AddRemoveCommute(c: Config, a: seq<Pair>, b: seq<Pair>)
    ensures AddSwitchToDoorLinks(RemoveSwitchToDoorLinks(c, b), a)
         == RemoveSwitchToDoorLinks(AddSwitchToDoorLinks(c, a), b)
  {
  }
}

=== FILE: contest.dfy ===
/**
  `ContestRunner.call`: runs a contestant's testing AI against a level, writes
  the relations the AI reports to a CSV file, and returns `0` when the AI
  completed its work and `-1` when it crashed or ran out of time.

  Threads, clocks and files are not modelled as such. What the AI, the clock,
  the CSV writer and the JVM do is given as data (`Contestant`, the finishing
  time, `stopSupported`), and the runner's own logic is stated over it: the
  report rows, the report path, the success flag, the return-code decision
  and the cleanup order.

  The code calls `aiThread.run()`, which executes the worker on the calling
  thread: the worker runs to its end, and its last act interrupts the runner
  itself, so the budget sleep that follows is interrupted at once
  (`CallAsWritten`). `CallWithStart` is the runner with `aiThread.start()`,
  which is what the budget and grace-period logic is written for.
 */
module Contest {
  import opened Lang
  import Decimal
  import Environment

  /** The default of `--time`, in seconds. */
  const DEFAULT_TIME_BUDGET: int32 := 60
  /** How long the runner waits after interrupting an AI that overran its budget. */
  const GRACE_MILLIS: int32 := 10000

  type Row = seq<string>

  /** The command-line options the runner's logic depends on. */
  datatype Options = Options(timeBudget: int32, reportDir: string, levelName: string)

  /**
    What happens outside the runner's control during one run:
    `factory` is what `mkAnInstanceOfMyTestingAI.get()` throws (`None`: it
    returns an AI); `ai` is how `exploreLRLogic` ends, its reported set given
    in the set's iteration order; `runTime` is the clock difference
    `endTime - startTime`; `exportVerdict` is what `CSVExport.exportToCSV`
    throws (`None`: it writes the file). An AI that returns a `null` set, or a
    set holding a `null` pair, makes the row-building loop throw a
    `NullPointerException`, which the worker catches; such a run is given as
    `ai == Thrown(NullPointerException)`.
   */
  datatype Contestant = Contestant(
    factory: Option<Exception>,
    ai: Outcome<seq<Pair>>,
    runTime: int,
    exportVerdict: Option<Exception>)

  // ---------------------------------------------------------------------
  // The report

  /**
    `data` is the report of a run lasting `runTime` ms that found the pairs
    `order`: a first row holding only the runtime in decimal, then one
    two-field row per pair, in order.
   */
  predicate IsReportOf(data: seq<Row>, runTime: int, order: seq<Pair>) {
    |data| == 1 + |order|
    && data[0] == [Decimal.IntToString(runTime)]
    && forall i :: 0 <= i < |order| ==> data[i + 1] == [order[i].fst, order[i].snd]
  }

  function PairRows(order: seq<Pair>): (rows: seq<Row>)
    ensures |rows| == |order|
    ensures forall i :: 0 <= i < |order| ==> rows[i] == [order[i].fst, order[i].snd]
  {
    if |order| == 0 then []
    else [[order[0].fst, order[0].snd]] + PairRows(order[1..])
  }

  /** The rows handed to `CSVExport.exportToCSV`. */
  function ReportRows(runTime: int, order: seq<Pair>): (data: seq<Row>)
    ensures IsReportOf(data, runTime, order)
  {
    [[Decimal.IntToString(runTime)]] + PairRows(order)
  }

  /** What a reader of the report file recovers from it. */
  datatype Report = Report(runTime: int, pairs: seq<Pair>)

  function ParsePairs(rows: seq<Row>): Option<seq<Pair>> {
    if |rows| == 0 then Some([])
    else if |rows[0]| != 2 then None
    else match ParsePairs(rows[1..])
      case None => None
      case Some(rest) => Some([Pair(rows[0][0], rows[0][1])] + rest)
  }

  /** Reads a report back: the runtime row, then the pair rows. */
  function ParseReport(data: seq<Row>): Option<Report> {
    if |data| == 0 || |data[0]| != 1 then None
    else match (Decimal.ParseInt(data[0][0]), ParsePairs(data[1..]))
      case (Some(t), Some(pairs)) => Some(Report(t, pairs))
      case _ => None
  }

  lemma {:induction false} ParsePairsInverts(rows: seq<Row>, order: seq<Pair>)
    requires |rows| == |order|
    requires forall i :: 0 <= i < |order| ==> rows[i] == [order[i].fst, order[i].snd]
    ensures ParsePairs(rows) == Some(order)
  {
    if |rows| > 0 {
      ParsePairsInverts(rows[1..], order[1..]);
      assert [order[0]] + order[1..] == order;
    }
  }

  /** A report gives back exactly the runtime and the pairs it was made from. */
  lemma ParseReportInverts(data: seq<Row>, runTime: int, order: seq<Pair>)
    requires IsReportOf(data, runTime, order)
    ensures ParseReport(data) == Some(Report(runTime, order))
  {
    Decimal.ParseIntToString(runTime);
    ParsePairsInverts(data[1..], order);
  }

  /** Different runs give different reports. */
  lemma ReportRowsInjective(t1: int, o1: seq<Pair>, t2: int, o2: seq<Pair>)
    requires ReportRows(t1, o1) == ReportRows(t2, o2)
    ensures t1 == t2 && o1 == o2
  {
    ParseReportInverts(ReportRows(t1, o1), t1, o1);
    ParseReportInverts(ReportRows(t2, o2), t2, o2);
  }

  /** `order` lists every element of `report` exactly once: a set's iteration order. */
  ghost predicate Enumerates(order: seq<Pair>, report: set<Pair>) {
    (forall i, j :: 0 <= i < j < |order| ==> order[i] != order[j])
    && (forall p :: p in report <==> p in order)
  }

  lemma {:induction false} EnumerationLength(order: seq<Pair>, report: set<Pair>)
    requires Enumerates(order, report)
    ensures |report| == |order|
    decreases |order|
  {
    if |order| == 0 {
      forall p
        ensures p !in report
      {
        assert p in report <==> p in order;
      }
      assert report == {};
    } else {
      var last := order[|order| - 1];
      var prefix := order[..|order| - 1];
      var rest := report - {last};
      forall p
        ensures p in rest <==> p in prefix
      {
        if p in prefix {
          var i :| 0 <= i < |prefix| && prefix[i] == p;
          assert order[i] == p;
        }
        assert order == prefix + [last];
      }
      EnumerationLength(prefix, rest);
      assert last in report;
    }
  }

  /**
    The report of a reported set has one row per element plus the runtime row,
    and a pair is in the set exactly when its row is in the report.
   */
  lemma ReportCoversSet(data: seq<Row>, runTime: int, order: seq<Pair>, report: set<Pair>)
    requires IsReportOf(data, runTime, order)
    requires Enumerates(order, report)
    ensures |data| == 1 + |report|
    ensures forall p :: p in report <==> exists i :: 1 <= i < |data| && data[i] == [p.fst, p.snd]
  {
    EnumerationLength(order, report);
    forall p
      ensures p in report <==> exists i :: 1 <= i < |data| && data[i] == [p.fst, p.snd]
    {
      if p in report {
        var k :| 0 <= k < |order| && order[k] == p;
        assert data[k + 1] == [p.fst, p.snd];
      }
      if exists i :: 1 <= i < |data| && data[i] == [p.fst, p.snd] {
        var i :| 1 <= i < |data| && data[i] == [p.fst, p.snd];
        var q := order[i - 1];
        assert data[i] == [q.fst, q.snd];
        assert [p.fst, p.snd][0] == q.fst && [p.fst, p.snd][1] == q.snd;
        assert p == q;
      }
    }
  }

  // ---------------------------------------------------------------------
  // The report path

  /** `reportDir + separator + "report_" + levelName + ".csv"`. */
  function ReportPath(reportDir: string, separator: string, levelName: string): (path: string)
    ensures |path| == |reportDir| + |separator| + |levelName| + 11
    ensures path[..|reportDir| + |separator|] == reportDir + separator
    ensures path[|reportDir| + |separator|..|reportDir| + |separator| + 7] == "report_"
    ensures path[|path| - |levelName| - 4..] == levelName + ".csv"
  {
    reportDir + separator + "report_" + levelName + ".csv"
  }

  /** The level name a report path was made for, if it is a report path in `reportDir`. */
  function ReportLevelName(reportDir: string, separator: string, path: string): Option<string> {
    var head := reportDir + separator + "report_";
    if |path| >= |head| + 4 && path[..|head|] == head && path[|path| - 4..] == ".csv"
    then Some(path[|head|..|path| - 4])
    else None
  }

  /** The level name can be read back from the report path. */
  lemma ReportLevelNameInverts(reportDir: string, separator: string, levelName: string)
    ensures ReportLevelName(reportDir, separator, ReportPath(reportDir, separator, levelName)) == Some(levelName)
  {
    var head := reportDir + separator + "report_";
    var path := ReportPath(reportDir, separator, levelName);
    assert path == head + levelName + ".csv";
    assert path[..|head|] == head;
    assert path[|head|..|path| - 4] == levelName;
  }

  /** Two levels never share a report file in the same directory. */
  lemma ReportPathInjective(reportDir: string, separator: string, a: string, b: string)
    requires ReportPath(reportDir, separator, a) == ReportPath(reportDir, separator, b)
    ensures a == b
  {
    ReportLevelNameInverts(reportDir, separator, a);
    ReportLevelNameInverts(reportDir, separator, b);
  }

  // ---------------------------------------------------------------------
  // The worker

  /** `catch (Exception e)` catches everything but a `java.lang.Error`. */
  predicate Caught(e: Exception) {
    e != JavaError
  }

  /** A report file as written by `CSVExport.exportToCSV`. */
  datatype Export = Export(path: string, rows: seq<Row>)

  /**
    How the worker ends: the export it attempted, the success flag
    `aiThreadHasTerminatedNormally`, and the throwable that escapes it. A
    worker from which nothing escapes interrupts the runner's thread as its
    last act.
   */
  datatype WorkerRun = WorkerRun(written: Option<Export>, flag: bool, escaped: Option<Exception>)

  /**
    The worker's body. The AI is created before the `try`, so whatever its
    factory throws escapes; an `Exception` from the AI or the export is
    swallowed and leaves the flag `false`; an `Error` escapes.
   */
  function Worker(opts: Options, separator: string, c: Contestant): (w: WorkerRun)
    ensures w.flag <==> c.factory.None? && c.ai.Normal? && c.exportVerdict.None?
    ensures w.written.Some? <==> c.factory.None? && c.ai.Normal?
    ensures w.written.Some? ==> w.written.value.path == ReportPath(opts.reportDir, separator, opts.levelName)
    ensures w.written.Some? ==> IsReportOf(w.written.value.rows, c.runTime, c.ai.value)
    ensures w.escaped.Some? <==>
              (c.factory.Some?
               || (c.factory.None? && c.ai.Thrown? && !Caught(c.ai.exc))
               || (c.factory.None? && c.ai.Normal? && c.exportVerdict.Some? && !Caught(c.exportVerdict.value)))
    ensures w.escaped.Some? ==> !w.flag
    ensures c.factory.Some? ==> w.escaped == c.factory
    ensures c.factory.None? && c.ai.Thrown? ==>
              w.escaped == (if Caught(c.ai.exc) then None else Some(c.ai.exc))
    ensures c.factory.None? && c.ai.Normal? ==>
              w.escaped == (if c.exportVerdict.None? || Caught(c.exportVerdict.value) then None
                            else c.exportVerdict)
  {
    if c.factory.Some? then WorkerRun(None, false, c.factory)
    else match c.ai
      case Thrown(e) => WorkerRun(None, false, if Caught(e) then None else Some(e))
      case Normal(order) =>
        var file := Export(ReportPath(opts.reportDir, separator, opts.levelName),
                             ReportRows(c.runTime, order));
        match c.exportVerdict
        case None => WorkerRun(Some(file), true, None)
        case Some(e) => WorkerRun(Some(file), false, if Caught(e) then None else Some(e))
  }

  // ---------------------------------------------------------------------
  // Waiting and the return code

  /** How a `Thread.sleep` ends. */
  datatype Sleep = Slept | Interrupted | SleepThrew(exc: Exception)

  /**
    `Thread.sleep(millis)` for a thread whose interrupt arrives `interruptAt`
    ms into the sleep (at or before 0: it is already pending), or never. A
    negative duration is rejected before the interrupt status is looked at.
   */
  function SleepFor(millis: int, interruptAt: Option<int>): (r: Sleep)
    ensures r.SleepThrew? <==> millis < 0
    ensures r.SleepThrew? ==> r.exc == IllegalArgumentException
    ensures millis >= 0 && interruptAt.Some? && interruptAt.value <= 0 ==> r == Interrupted
    ensures millis >= 0 && interruptAt.Some? && 0 < interruptAt.value < millis ==> r == Interrupted
    ensures millis >= 0 && (interruptAt.None? || (interruptAt.value > 0 && interruptAt.value >= millis)) ==>
              r == Slept
  {
    if millis < 0 then SleepThrew(IllegalArgumentException)
    else if interruptAt.Some? && (interruptAt.value <= 0 || interruptAt.value < millis) then Interrupted
    else Slept
  }

  /** `timeBudget * 1000`, an `int` multiplication. */
  function BudgetMillis(timeBudget: int32): (ms: int32)
    ensures 0 <= timeBudget as int <= INT32_MAX / 1000 ==> ms as int == timeBudget as int * 1000
    ensures (ms as int - timeBudget as int * 1000) % 0x1_0000_0000 == 0
  {
    Wrap32(timeBudget as int * 1000)
  }

  /** Without `--time`, the runner waits one minute for the AI. */
  lemma DefaultBudgetIsOneMinute()
    ensures BudgetMillis(DEFAULT_TIME_BUDGET) as int == 60000
  {
  }


  /**
    The return code: `0` only when a wait was cut short by the worker's
    interrupt and the worker had completed; `-1` when it had not, or when
    both waits ran out and the worker was stopped. `Thread.stop` throws
    `UnsupportedOperationException` on the JVMs that no longer support it.
   */
  function Classify(flag: bool, first: Sleep, second: Sleep, stopSupported: bool): (r: Outcome<int32>)
    ensures r.Normal? ==> r.value == 0 || r.value == -1
    ensures r == Normal(0) <==> flag && (first.Interrupted? || (first.Slept? && second.Interrupted?))
    ensures first.Slept? && second.Slept? ==>
              r == if stopSupported then Normal(-1) else Thrown(UnsupportedOperationException)
    ensures first.SleepThrew? ==> r == Thrown(first.exc)
    ensures first.Slept? && second.SleepThrew? ==> r == Thrown(second.exc)
    ensures r.Thrown? ==>
              ((first.SleepThrew? && r.exc == first.exc)
               || (first.Slept? && second.SleepThrew? && r.exc == second.exc)
               || (first.Slept? && second.Slept? && !stopSupported))
  {
    match first
    case Interrupted => Normal(if flag then 0 else -1)
    case SleepThrew(e) => Thrown(e)
    case Slept =>
      match second
      case Interrupted => Normal(if flag then 0 else -1)
      case SleepThrew(e) => Thrown(e)
      case Slept => if stopSupported then Normal(-1) else Thrown(UnsupportedOperationException)
  }

  // ---------------------------------------------------------------------
  // Cleanup

  datatype Action = EnvironmentClosed | ServerClosed

  datatype Ending = Ending(actions: seq<Action>, env: Environment.Env, result: Outcome<int32>)

  /**
    The `finally` block: the environment is closed, then the game server. A
    `NullPointerException` from `environment.close()` skips the server and
    replaces how the `try` ended; otherwise the `try`'s outcome stands.
   */
  function Cleanup(pending: Outcome<int32>, env: Environment.Env, reply: Environment.Reply): (e: Ending)
    requires Environment.Fits(reply, Environment.BooleanType)
    ensures 1 <= |e.actions| <= 2 && e.actions[0] == EnvironmentClosed
    ensures e.actions == [EnvironmentClosed, ServerClosed] <==> Environment.Close(env, reply).result.Normal?
    ensures e.env == Environment.Close(env, reply).env
    ensures Environment.Close(env, reply).result.Normal? ==> e.result == pending
    ensures Environment.Close(env, reply).result.Thrown? ==> e.result == Thrown(NullPointerException)
  {
    var closed := Environment.Close(env, reply);
    if closed.result.Thrown? then Ending([EnvironmentClosed], closed.env, Thrown(closed.result.exc))
    else Ending([EnvironmentClosed, ServerClosed], closed.env, pending)
  }

  // ---------------------------------------------------------------------
  // The whole call

  /**
    How `call()` ends: the cleanup steps taken, the returned code or the
    exception thrown, the code printed in the `END` line, and the time
    (ms after the worker started) at which the code was decided.
   */
  datatype Run = Run(actions: seq<Action>, result: Outcome<int32>, printed: Option<int32>, decidedAt: nat)

  function Conclude(fin: Ending, decidedAt: nat): (r: Run)
    ensures r.printed.Some? <==> r.result.Normal?
    ensures r.printed.Some? ==> r.printed.value == r.result.value
  {
    Run(fin.actions, fin.result, if fin.result.Normal? then Some(fin.result.value) else None, decidedAt)
  }

  /**
    `call()` as written: the worker runs to its end on the runner's thread
    (`finish` ms), so a throwable escaping it escapes `call()` before the
    `try`, and otherwise the worker's interrupt is pending when the budget
    sleep starts.
   */
  function CallAsWritten(opts: Options, separator: string, c: Contestant, finish: nat,
                         stopSupported: bool, env: Environment.Env, reply: Environment.Reply): (r: Run)
    requires Environment.Fits(reply, Environment.BooleanType)
    ensures r.printed.Some? <==> r.result.Normal?
    ensures r.printed.Some? ==> r.printed.value == r.result.value
    ensures r.actions == [] <==> Worker(opts, separator, c).escaped.Some?
    ensures Worker(opts, separator, c).escaped.Some? ==> r.result == Thrown(Worker(opts, separator, c).escaped.value)
    ensures r.actions != [] ==> r.actions[0] == EnvironmentClosed
    ensures r.result.Normal? ==> r.actions == [EnvironmentClosed, ServerClosed]
    ensures r.result == Normal(0) <==>
              (Worker(opts, separator, c).flag && BudgetMillis(opts.timeBudget) >= 0
               && Environment.Close(env, reply).result.Normal?)
    ensures r.result == Normal(-1) <==>
              (!Worker(opts, separator, c).flag && Worker(opts, separator, c).escaped.None?
               && BudgetMillis(opts.timeBudget) >= 0 && Environment.Close(env, reply).result.Normal?)
    ensures r.result.Normal? ==> r.result.value == 0 || r.result.value == -1
    ensures (Worker(opts, separator, c).escaped.None? && BudgetMillis(opts.timeBudget) < 0
             && Environment.Close(env, reply).result.Normal?) ==>
              r.result == Thrown(IllegalArgumentException)
    ensures Worker(opts, separator, c).escaped.None? && Environment.Close(env, reply).result.Thrown? ==>
              r.actions == [EnvironmentClosed] && r.result == Thrown(NullPointerException)
    ensures Worker(opts, separator, c).escaped.None? && Environment.Close(env, reply).result.Normal? ==>
              r.actions == [EnvironmentClosed, ServerClosed]
    ensures r.decidedAt == finish
  {
    var w := Worker(opts, separator, c);
    if w.escaped.Some? then Run([], Thrown(w.escaped.value), None, finish)
    else
      var pending := Some(0);
      var code := Classify(w.flag, SleepFor(BudgetMillis(opts.timeBudget) as int, pending),
                           SleepFor(GRACE_MILLIS as int, pending), stopSupported);
      Conclude(Cleanup(code, env, reply), finish)
  }

  /**
    `call()` with the worker started on its own thread. It ends `finish` ms
    after it starts (`None`: not before the runner gives up on it) and then
    interrupts the runner, unless a throwable escaped it, which ends that
    thread alone. The runner waits the budget, interrupts the worker, waits
    the grace period, and stops it.
   */
  function CallWithStart(opts: Options, separator: string, c: Contestant, finish: Option<nat>,
                         stopSupported: bool, env: Environment.Env, reply: Environment.Reply): (r: Run)
    requires Environment.Fits(reply, Environment.BooleanType)
    ensures r.printed.Some? <==> r.result.Normal?
    ensures r.printed.Some? ==> r.printed.value == r.result.value
    ensures 1 <= |r.actions| && r.actions[0] == EnvironmentClosed
    ensures BudgetMillis(opts.timeBudget) >= 0 ==>
              r.decidedAt <= BudgetMillis(opts.timeBudget) as int + GRACE_MILLIS as int
    ensures r.result == Normal(0) <==>
              (Worker(opts, separator, c).flag && BudgetMillis(opts.timeBudget) >= 0
               && finish.Some? && finish.value < BudgetMillis(opts.timeBudget) as int + GRACE_MILLIS as int
               && Environment.Close(env, reply).result.Normal?)
    ensures r.result.Normal? ==> r.result.value == 0 || r.result.value == -1
    ensures Environment.Close(env, reply).result.Normal? ==> r.actions == [EnvironmentClosed, ServerClosed]
    ensures Environment.Close(env, reply).result.Thrown? ==>
              r.actions == [EnvironmentClosed] && r.result == Thrown(NullPointerException)
    ensures BudgetMillis(opts.timeBudget) < 0 && Environment.Close(env, reply).result.Normal? ==>
              r.result == Thrown(IllegalArgumentException)
  {
    var w := Worker(opts, separator, c);
    var budget := BudgetMillis(opts.timeBudget) as int;
    var interruptAt: Option<int> := if w.escaped.None? && finish.Some? then Some(finish.value) else None;
    var first := SleepFor(budget, interruptAt);
    var second := SleepFor(GRACE_MILLIS as int, if interruptAt.Some? then Some(interruptAt.value - budget) else None);
    var code := Classify(w.flag, first, second, stopSupported);
    var decidedAt: nat :=
      if budget < 0 then 0
      else if interruptAt.Some? && interruptAt.value < budget + GRACE_MILLIS as int then interruptAt.value
      else budget + GRACE_MILLIS as int;
    Conclude(Cleanup(code, env, reply), decidedAt)
  }

  /**
    As written, the time budget is never enforced: an AI that completes its
    work, however long it takes, gets return code `0`, decided only when it
    ends; with the worker started on its own thread the same AI, if it
    overruns the budget and the grace period, does not.
   */
  lemma BudgetNotEnforced(opts: Options, separator: string, c: Contestant, finish: nat,
                          stopSupported: bool, env: Environment.Env, reply: Environment.Reply)
    requires Environment.Fits(reply, Environment.BooleanType)
    requires c.factory.None? && c.ai.Normal? && c.exportVerdict.None?
    requires Environment.Close(env, reply).result.Normal?
    requires BudgetMillis(opts.timeBudget) >= 0
    requires finish >= BudgetMillis(opts.timeBudget) as int + GRACE_MILLIS as int
    ensures CallAsWritten(opts, separator, c, finish, stopSupported, env, reply).result == Normal(0)
    ensures CallAsWritten(opts, separator, c, finish, stopSupported, env, reply).decidedAt
              >= BudgetMillis(opts.timeBudget) as int + GRACE_MILLIS as int
    ensures CallWithStart(opts, separator, c, Some(finish), stopSupported, env, reply).result != Normal(0)
  {
  }

  /**
    With the worker started on its own thread, the budget is enforced: an AI
    that has not finished by the end of the budget and the grace period (or
    never finishes) is stopped, and `call()` returns `-1` after the full
    cleanup, whatever the AI would have reported.
   */
  lemma OverrunIsMinusOne(opts: Options, separator: string, c: Contestant, finish: Option<nat>,
                          env: Environment.Env, reply: Environment.Reply)
    requires Environment.Fits(reply, Environment.BooleanType)
    requires Environment.Close(env, reply).result.Normal?
    requires BudgetMillis(opts.timeBudget) >= 0
    requires finish.None? || finish.value >= BudgetMillis(opts.timeBudget) as int + GRACE_MILLIS as int
    ensures CallWithStart(opts, separator, c, finish, true, env, reply).result == Normal(-1)
    ensures CallWithStart(opts, separator, c, finish, true, env, reply).actions == [EnvironmentClosed, ServerClosed]
    ensures CallWithStart(opts, separator, c, finish, true, env, reply).printed == Some(-1)
  {
    var budget := BudgetMillis(opts.timeBudget) as int;
    var w := Worker(opts, separator, c);
    var interruptAt: Option<int> := if w.escaped.None? && finish.Some? then Some(finish.value) else None;
    assert SleepFor(budget, interruptAt) == Slept;
    assert SleepFor(GRACE_MILLIS as int, if interruptAt.Some? then Some(interruptAt.value - budget) else None)
        == Slept;
  }

  /**
    The time-out scenario: a five-second budget and an AI that reports after
    thirty seconds is still judged successful.
   */
  lemma FiveSecondBudgetExample(opts: Options, separator: string, order: seq<Pair>,
                                env: Environment.Env, reply: Environment.Reply)
    requires opts.timeBudget == 5
    requires Environment.Fits(reply, Environment.BooleanType)
    requires Environment.Close(env, reply).result.Normal?
    ensures CallAsWritten(opts, separator, Contestant(None, Normal(order), 30000, None), 30000,
                          true, env, reply).result == Normal(0)
    ensures CallWithStart(opts, separator, Contestant(None, Normal(order), 30000, None), Some(30000),
                          true, env, reply).result == Normal(-1)
  {
    assert BudgetMillis(opts.timeBudget) == 5000;
    BudgetNotEnforced(opts, separator, Contestant(None, Normal(order), 30000, None), 30000, true, env, reply);
  }
}

=== FILE: decimal.dfy ===
/**
  Decimal text of a Java `long`, as produced by string concatenation
  (`"" + n`, which is `Long.toString(n)`): an optional minus sign followed by
  the digits of the magnitude, with no leading zero. `ParseInt` reads such a
  text back and is the partner that shows the rendering loses nothing.
 */
module Decimal {
  import opened Lang

  predicate IsDigit(c: char) {
    '0' <= c <= '9'
  }

  predicate AllDigits(s: string) {
    forall i :: 0 <= i < |s| ==> IsDigit(s[i])
  }

  /** The canonical form of a magnitude: digits only, and no leading zero unless it is `0`. */
  predicate IsCanonicalNat(s: string) {
    |s| > 0 && AllDigits(s) && (s[0] == '0' ==> |s| == 1)
  }

  function DigitChar(d: nat): (c: char)
    requires d < 10
    ensures IsDigit(c)
    ensures (c as int) - ('0' as int) == d
  {
    (('0' as int) + d) as char
  }

  function DigitValue(c: char): (d: nat)
    requires IsDigit(c)
    ensures d < 10
    ensures DigitChar(d) == c
  {
    (c as int) - ('0' as int)
  }

  /** The decimal digits of `n`, most significant first. */
  function NatToString(n: nat): (s: string)
    ensures IsCanonicalNat(s)
    ensures n < 10 <==> |s| == 1
    decreases n
  {
    if n < 10 then [DigitChar(n)]
    else
      var front := NatToString(n / 10);
      var s := front + [DigitChar(n % 10)];
      assert s[0] == front[0];
      s
  }

  /** `Long.toString(n)`: a minus sign before a negative number, then its magnitude. */
  function IntToString(n: int): (s: string)
    ensures |s| > 0
    ensures n < 0 <==> s[0] == '-'
    ensures n >= 0 ==> IsCanonicalNat(s)
    ensures n < 0 ==> IsCanonicalNat(s[1..]) && s[1..] != "0"
  {
    if n >= 0 then NatToString(n)
    else
      var m := NatToString(-n);
      assert m != "0" by {
        if m == "0" {
          NatToStringZero(-n);
        }
      }
      var s := "-" + m;
      assert s[1..] == m;
      s
  }

  lemma NatToStringZero(n: nat)
    requires NatToString(n) == "0"
    ensures n == 0
  {
    assert n < 10;
    assert DigitValue(DigitChar(n)) == n;
  }

  /** The number a string of digits denotes. */
  function ParseNat(s: string): nat
    requires AllDigits(s)
  {
    if |s| == 0 then 0
    else ParseNat(s[..|s| - 1]) * 10 + DigitValue(s[|s| - 1])
  }

  /** Reads back the text `IntToString` produces; anything else is `None`. */
  function ParseInt(s: string): (r: Option<int>)
    ensures r.Some? ==> |s| > 0
  {
    if |s| > 1 && s[0] == '-' && IsCanonicalNat(s[1..]) && s[1..] != "0" then
      var magnitude: int := ParseNat(s[1..]);
      Some(-magnitude)
    else if IsCanonicalNat(s) then Some(ParseNat(s))
    else None
  }

  lemma {:induction false} ParseNatToString(n: nat)
    ensures ParseNat(NatToString(n)) == n
    decreases n
  {
    var s := NatToString(n);
    if n < 10 {
      assert s[..0] == [];
    } else {
      var front := NatToString(n / 10);
      assert s[..|s| - 1] == front;
      ParseNatToString(n / 10);
    }
  }

  /** Rendering a number and parsing the text gives the number back. */
  lemma ParseIntToString(n: int)
    ensures ParseInt(IntToString(n)) == Some(n)
  {
    var s := IntToString(n);
    if n >= 0 {
      ParseNatToString(n);
      assert !(|s| > 1 && s[0] == '-');
    } else {
      ParseNatToString(-n);
      assert s[1..] == NatToString(-n);
    }
  }

  /** Different numbers have different texts. */
  lemma IntToStringInjective(a: int, b: int)
    requires IntToString(a) == IntToString(b)
    ensures a == b
  {
    ParseIntToString(a);
    ParseIntToString(b);
  }
}

=== FILE: environment.dfy ===
/**
  `LabRecruitsEnvironment`: the bridge between an agent program and a running
  Lab Recruits game. Every operation is translated into one `Request`, written
  to the socket, and answered by exactly one typed response read back from it.

  The socket is an oracle: each exchange is given the `Reply` the transport
  produces (the write fails, the read fails, or a value of the requested
  response type arrives). The environment itself is a value; every operation
  returns the environment after the call together with how the call ended.
 */
module Environment {
  import opened Lang
  import opened Geometry
  import Config

  /** The cap on the distance an agent may be asked to move in one update. */
  const AGENTSPEED: real := 2.0

  /** Command names. `INTERACT_CMDNAME` is declared by the environment itself;
      the other three are inherited from the framework's `W3DEnvironment`, and
      all the translation relies on is that the four are distinct. */
  const LOADWORLD_CMDNAME: string := "LoadWorld"
  const OBSERVE_CMDNAME: string := "Observe"
  const MOVETOWARD_CMDNAME: string := "MoveToward"
  const INTERACT_CMDNAME: string := "Interact"

  predicate IsKnownCommand(command: string) {
    command in {LOADWORLD_CMDNAME, OBSERVE_CMDNAME, MOVETOWARD_CMDNAME, INTERACT_CMDNAME}
  }

  /** The navigation mesh as the game sends it, and as the framework converts it. */
  datatype RawNavMesh = RawNavMesh(json: string)
  datatype NavMesh = NavMesh(source: RawNavMesh)

  /** What the game reports the agent perceives, and the framework's view of it. */
  datatype Observation = Observation(json: string)
  datatype WorldModel = WorldModel(source: Option<Observation>)

  datatype AgentCommand =
    | DoNothing(agentId: string)
    | MoveTowardCommand(agentId: string, target: Vec3, jump: bool)
    | InteractCommand(agentId: string, targetId: string)

  datatype Request =
    | GymEnvironmentInitialisation(config: Config.Config)
    | Command(command: AgentCommand)
    | StartSimulation
    | PauseSimulation
    | Disconnect

  datatype ResponseType = RawNavMeshType | ObservationType | BooleanType

  /** The `responseType` each kind of request is answered with. */
  function ResponseTypeOf(req: Request): ResponseType {
    match req
    case GymEnvironmentInitialisation(_) => RawNavMeshType
    case Command(_) => ObservationType
    case _ => BooleanType
  }

  /** A decoded response; `None` is the `null` the decoder may produce. */
  datatype Value =
    | MeshValue(mesh: Option<RawNavMesh>)
    | ObservationValue(observation: Option<Observation>)
    | BooleanValue(flag: Option<bool>)

  function TypeOf(v: Value): ResponseType {
    match v
    case MeshValue(_) => RawNavMeshType
    case ObservationValue(_) => ObservationType
    case BooleanValue(_) => BooleanType
  }

  /** What the transport does with one exchange. */
  datatype Reply = WriteFails | ReadFails | Delivered(value: Value)

  /** The transport decodes the response as the type it was asked for. */
  predicate Fits(reply: Reply, t: ResponseType) {
    reply.Delivered? ==> TypeOf(reply.value) == t
  }

  /** What happens on the socket, in order. */
  datatype Event = Wrote(request: Request) | Read(responseType: ResponseType)

  datatype Env = Env(
    config: Config.Config,
    socketOpen: bool,
    trace: seq<Event>,
    navMesh: Option<NavMesh>,
    lastObservation: Option<Observation>)

  /** The environment after a call, and how the call ended. */
  datatype Step<T> = Step(env: Env, result: Outcome<T>)

  /**
    Every read on the socket comes right after a write, and reads the response
    type of the request just written: requests and responses are paired.
   */
  predicate Paired(trace: seq<Event>) {
    forall i :: 0 <= i < |trace| && trace[i].Read? ==>
      i > 0 && trace[i - 1].Wrote? && trace[i].responseType == ResponseTypeOf(trace[i - 1].request)
  }

  /** The socket events of one exchange: the write, then the read unless the write failed. */
  function Exchange(req: Request, reply: Reply): seq<Event> {
    if reply.WriteFails? then [Wrote(req)] else [Wrote(req), Read(ResponseTypeOf(req))]
  }

  lemma ExchangeKeepsPaired(trace: seq<Event>, req: Request, reply: Reply)
    ensures Paired(trace) ==> Paired(trace + Exchange(req, reply))
  {
    if !Paired(trace) {
      return;
    }
    var t := trace + Exchange(req, reply);
    forall i | 0 <= i < |t| && t[i].Read?
      ensures i > 0 && t[i - 1].Wrote? && t[i].responseType == ResponseTypeOf(t[i - 1].request)
    {
      if i < |trace| {
        assert t[i] == trace[i] && t[i - 1] == trace[i - 1];
      } else {
        assert i == |trace| + 1;
      }
    }
  }

  /**
    `sendPackage`: write the request, then read one response of the request's
    response type. A failed write or read surfaces as an `IOException`.
   */
  function SendPackage(env: Env, req: Request, reply: Reply): (r: Step<Value>)
    requires Fits(reply, ResponseTypeOf(req))
    ensures r.env == env.(trace := env.trace + Exchange(req, reply))
    ensures reply.Delivered? ==> r.env.trace == env.trace + [Wrote(req), Read(ResponseTypeOf(req))]
    ensures r.result.Thrown? <==> !reply.Delivered?
    ensures r.result.Thrown? ==> r.result.exc == IOException
    ensures reply.Delivered? ==> r.result == Normal(reply.value)
    ensures r.result.Normal? ==> TypeOf(r.result.value) == ResponseTypeOf(req)
    ensures Paired(env.trace) ==> Paired(r.env.trace)
  {
    ExchangeKeepsPaired(env.trace, req, reply);
    var env' := env.(trace := env.trace + Exchange(req, reply));
    match reply
    case Delivered(v) => Step(env', Normal(v))
    case _ => Step(env', Thrown(IOException))
  }

  /**
    The move-clamping rule: a target farther than `AGENTSPEED` from the agent
    is replaced by the point at distance `AGENTSPEED` along the same direction;
    a nearer target is kept as it is.
   */
  function MoveTarget(agent: Vec3, target: Vec3, len: Vec3 -> real): (r: Vec3)
    requires IsLength(len)
    ensures len(Sub(target, agent)) <= AGENTSPEED ==> r == target
    ensures len(Sub(target, agent)) > AGENTSPEED ==>
              len(Sub(r, agent)) == AGENTSPEED
              && exists k: real :: k > 0.0 && Sub(r, agent) == Scale(Sub(target, agent), k)
  {
    var direction := Sub(target, agent);
    if len(direction) > AGENTSPEED then
      var step := Scale(Normalized(direction, len), AGENTSPEED);
      AddThenSub(agent, step);
      ScaledToLength(direction, AGENTSPEED, len);
      assert step == Scale(direction, AGENTSPEED / len(direction));
      Add(agent, step)
    else
      target
  }

  /** The argument of an `EnvOperation`; only move-toward carries one, a pair of positions. */
  datatype OpArg = NoArg | Positions(agent: Vec3, target: Vec3) | OtherArg

  datatype EnvOperation = EnvOperation(invokerId: string, targetId: string, command: string, arg: OpArg)

  /**
    The translation at the start of `sendCommand_`: each known command name
    becomes exactly one request; any other name is an `IllegalArgumentException`.
    A move-toward whose argument is missing or is not a pair of positions fails
    on the cast (`null` dereference or class cast).
   */
  function Translate(op: EnvOperation, config: Config.Config, len: Vec3 -> real): (r: Outcome<Request>)
    requires IsLength(len)
    ensures op.command == LOADWORLD_CMDNAME ==> r == Normal(GymEnvironmentInitialisation(config))
    ensures op.command == OBSERVE_CMDNAME ==> r == Normal(Command(DoNothing(op.invokerId)))
    ensures op.command == INTERACT_CMDNAME ==>
              r == Normal(Command(InteractCommand(op.invokerId, op.targetId)))
    ensures op.command == MOVETOWARD_CMDNAME ==> (r.Normal? <==> op.arg.Positions?)
    ensures op.command == MOVETOWARD_CMDNAME && op.arg.Positions? ==>
              r == Normal(Command(MoveTowardCommand(op.invokerId,
                                                    MoveTarget(op.arg.agent, op.arg.target, len), false)))
    ensures op.command == MOVETOWARD_CMDNAME && op.arg.NoArg? ==> r == Thrown(NullPointerException)
    ensures op.command == MOVETOWARD_CMDNAME && op.arg.OtherArg? ==> r == Thrown(ClassCastException)
    ensures r == Thrown(IllegalArgumentException) <==> !IsKnownCommand(op.command)
  {
    if op.command == LOADWORLD_CMDNAME then
      Normal(GymEnvironmentInitialisation(config))
    else if op.command == OBSERVE_CMDNAME then
      Normal(Command(DoNothing(op.invokerId)))
    else if op.command == MOVETOWARD_CMDNAME then
      match op.arg
      case Positions(agent, target) =>
        var jump := false;
        Normal(Command(MoveTowardCommand(op.invokerId, MoveTarget(agent, target, len), jump)))
      case NoArg => Thrown(NullPointerException)
      case OtherArg => Thrown(ClassCastException)
    else if op.command == INTERACT_CMDNAME then
      Normal(Command(InteractCommand(op.invokerId, op.targetId)))
    else
      Thrown(IllegalArgumentException)
  }

  /** The command name a request is the translation of; `None` for requests no command produces. */
  function CommandNameOf(req: Request): Option<string> {
    match req
    case GymEnvironmentInitialisation(_) => Some(LOADWORLD_CMDNAME)
    case Command(DoNothing(_)) => Some(OBSERVE_CMDNAME)
    case Command(MoveTowardCommand(_, _, _)) => Some(MOVETOWARD_CMDNAME)
    case Command(InteractCommand(_, _)) => Some(INTERACT_CMDNAME)
    case _ => None
  }

  /**
    Every request that `Translate` produces can be traced back to the command
    it came from, and an agent command is issued on behalf of the invoker:
    no tag is mistaken for another.
   */
  lemma TranslateIsInvertible(op: EnvOperation, config: Config.Config, len: Vec3 -> real)
    requires IsLength(len)
    requires Translate(op, config, len).Normal?
    ensures CommandNameOf(Translate(op, config, len).value) == Some(op.command)
    ensures Translate(op, config, len).value.Command? ==>
              Translate(op, config, len).value.command.agentId == op.invokerId
    ensures Translate(op, config, len).value.GymEnvironmentInitialisation? ==>
              Translate(op, config, len).value.config == config
  {
  }

  /** A clamped target is within reach, so clamping it again leaves it alone. */
  lemma MoveTargetIdempotent(agent: Vec3, target: Vec3, len: Vec3 -> real)
    requires IsLength(len)
    ensures len(Sub(MoveTarget(agent, target, len), agent)) <= AGENTSPEED
    ensures MoveTarget(agent, MoveTarget(agent, target, len), len) == MoveTarget(agent, target, len)
  {
  }

  /** The response type the request for `op` is answered with. */
  function ExpectedType(op: EnvOperation): ResponseType {
    if op.command == LOADWORLD_CMDNAME then RawNavMeshType else ObservationType
  }

  /** What `sendCommand_` hands back: the raw mesh for load-world, a world model otherwise. */
  datatype Payload = MeshPayload(mesh: RawNavMesh) | WorldPayload(world: WorldModel)

  /**
    `sendCommand_`: translate, exchange, and hand back the decoded answer. An
    I/O failure is caught and turned into `null` (`None`); a translation
    failure propagates before anything is written. For every command but
    load-world, the received observation is also kept in the environment.
   */
  function SendCommand(env: Env, op: EnvOperation, len: Vec3 -> real, reply: Reply): (r: Step<Option<Payload>>)
    requires IsLength(len)
    requires Fits(reply, ExpectedType(op))
    ensures r.result.Thrown? <==> Translate(op, env.config, len).Thrown?
    ensures r.result.Thrown? ==> r.env == env && r.result.exc == Translate(op, env.config, len).exc
    ensures r.result.Normal? ==>
              r.env.trace == env.trace + Exchange(Translate(op, env.config, len).value, reply)
    ensures r.result.Normal? && !reply.Delivered? ==> r.result.value.None? && r.env == env.(trace := r.env.trace)
    ensures r.env.config == env.config && r.env.socketOpen == env.socketOpen && r.env.navMesh == env.navMesh
    ensures op.command == LOADWORLD_CMDNAME ==> r.env.lastObservation == env.lastObservation
    ensures reply.Delivered? && r.result.Normal? && op.command == LOADWORLD_CMDNAME ==>
              (r.result.value.Some? <==> reply.value.mesh.Some?)
              && (r.result.value.Some? ==> r.result.value.value == MeshPayload(reply.value.mesh.value))
    ensures reply.Delivered? && r.result.Normal? && op.command != LOADWORLD_CMDNAME ==>
              r.result.value == Some(WorldPayload(WorldModel(reply.value.observation)))
              && r.env.lastObservation == reply.value.observation
    ensures Paired(env.trace) ==> Paired(r.env.trace)
  {
    match Translate(op, env.config, len)
    case Thrown(e) => Step(env, Thrown(e))
    case Normal(req) =>
      var sent := SendPackage(env, req, reply);
      match sent.result
      case Thrown(_) => Step(sent.env, Normal(None))
      case Normal(v) =>
        if op.command == LOADWORLD_CMDNAME then
          Step(sent.env, Normal(if v.mesh.Some? then Some(MeshPayload(v.mesh.value)) else None))
        else
          var obs := v.observation;
          Step(sent.env.(lastObservation := obs), Normal(Some(WorldPayload(WorldModel(obs)))))
  }

  /** The operation `loadWorld` sends through the framework's `sendCommand`. */
  const LoadWorldOp: EnvOperation := EnvOperation("", "", LOADWORLD_CMDNAME, NoArg)

  /**
    `loadWorld`: ask the game for the level's navigation mesh. No mesh (an I/O
    failure, or a `null` answer) is an `Iv4xrError`; otherwise the converted
    mesh becomes the environment's navigable world.
   */
  function LoadWorld(env: Env, len: Vec3 -> real, reply: Reply): (r: Step<()>)
    requires IsLength(len)
    requires Fits(reply, RawNavMeshType)
    ensures r.env.trace == env.trace + Exchange(GymEnvironmentInitialisation(env.config), reply)
    ensures r.result.Thrown? <==> !(reply.Delivered? && reply.value.mesh.Some?)
    ensures r.result.Thrown? ==> r.result.exc == Iv4xrError && r.env.navMesh == env.navMesh
    ensures r.result.Normal? ==> r.env.navMesh == Some(NavMesh(reply.value.mesh.value))
    ensures r.env.config == env.config && r.env.socketOpen == env.socketOpen
    ensures r.env.lastObservation == env.lastObservation
  {
    var s := SendCommand(env, LoadWorldOp, len, reply);
    match s.result
    case Normal(Some(MeshPayload(m))) => Step(s.env.(navMesh := Some(NavMesh(m))), Normal(()))
    case _ => Step(s.env, Thrown(Iv4xrError))
  }

  /**
    The constructor: open the socket to the configured host and port and load
    the world. The environment starts with an open socket, an empty exchange
    history and no mesh.
   */
  function Connect(config: Config.Config, len: Vec3 -> real, reply: Reply): (r: Step<()>)
    requires IsLength(len)
    requires Fits(reply, RawNavMeshType)
    ensures r.env.socketOpen && r.env.config == config
    ensures r.env.trace == Exchange(GymEnvironmentInitialisation(config), reply)
    ensures Paired(r.env.trace)
    ensures r.result.Normal? <==> r.env.navMesh.Some?
    ensures r.result.Normal? <==> reply.Delivered? && reply.value.mesh.Some?
    ensures r.result.Thrown? ==> r.result.exc == Iv4xrError
    ensures r.result.Normal? ==> r.env.navMesh == Some(NavMesh(reply.value.mesh.value))
    ensures r.env.lastObservation == None
  {
    var initial := Env(config, true, [], None, None);
    assert Paired(initial.trace);
    ExchangeKeepsPaired([], GymEnvironmentInitialisation(config), reply);
    assert [] + Exchange(GymEnvironmentInitialisation(config), reply)
        == Exchange(GymEnvironmentInitialisation(config), reply);
    LoadWorld(initial, len, reply)
  }

  /** `observe`: a do-nothing command whose answer is the current observation. */
  function Observe(env: Env, agentId: string, len: Vec3 -> real, reply: Reply): (r: Step<Option<Payload>>)
    requires IsLength(len)
    requires Fits(reply, ObservationType)
    ensures r.result.Normal?
    ensures r.env.trace == env.trace + Exchange(Command(DoNothing(agentId)), reply)
    ensures r.env == env.(trace := r.env.trace, lastObservation := r.env.lastObservation)
    ensures !reply.Delivered? ==> r.result.value.None? && r.env.lastObservation == env.lastObservation
    ensures reply.Delivered? ==>
              r.result.value == Some(WorldPayload(WorldModel(reply.value.observation)))
              && r.env.lastObservation == reply.value.observation
  {
    SendCommand(env, EnvOperation(agentId, "", OBSERVE_CMDNAME, NoArg), len, reply)
  }

  /**
    `moveToward`: the move command written to the socket targets the clamped
    location, never a point farther than `AGENTSPEED` from the agent, and never
    asks for a jump.
   */
  function MoveToward(env: Env, agentId: string, agentLocation: Vec3, targetLocation: Vec3,
                      len: Vec3 -> real, reply: Reply): (r: Step<Option<Payload>>)
    requires IsLength(len)
    requires Fits(reply, ObservationType)
    ensures r.result.Normal?
    ensures |r.env.trace| > |env.trace| && r.env.trace[..|env.trace|] == env.trace
    ensures var sent := r.env.trace[|env.trace|];
      sent.Wrote? && sent.request.Command? && sent.request.command.MoveTowardCommand?
      && sent.request.command.agentId == agentId
      && !sent.request.command.jump
      && len(Sub(sent.request.command.target, agentLocation)) <= AGENTSPEED
    ensures r.env.trace == env.trace + Exchange(Command(MoveTowardCommand(agentId,
                                   MoveTarget(agentLocation, targetLocation, len), false)), reply)
    ensures r.env == env.(trace := r.env.trace, lastObservation := r.env.lastObservation)
    ensures !reply.Delivered? ==> r.result.value.None? && r.env.lastObservation == env.lastObservation
    ensures reply.Delivered? ==>
              r.result.value == Some(WorldPayload(WorldModel(reply.value.observation)))
              && r.env.lastObservation == reply.value.observation
  {
    var r := SendCommand(env, EnvOperation(agentId, "", MOVETOWARD_CMDNAME,
                                           Positions(agentLocation, targetLocation)), len, reply);
    assert r.env.trace[..|env.trace|] == env.trace;
    r
  }

  /**
    `interact`: an interaction command naming the target entity; the
    interaction type argument is ignored, and proximity is left to the game.
   */
  function Interact(env: Env, agentId: string, targetId: string, interactionType: string,
                    len: Vec3 -> real, reply: Reply): (r: Step<Option<Payload>>)
    requires IsLength(len)
    requires Fits(reply, ObservationType)
    ensures r.result.Normal?
    ensures r.env.trace == env.trace + Exchange(Command(InteractCommand(agentId, targetId)), reply)
    ensures r.env == env.(trace := r.env.trace, lastObservation := r.env.lastObservation)
    ensures !reply.Delivered? ==> r.result.value.None? && r.env.lastObservation == env.lastObservation
    ensures reply.Delivered? ==>
              r.result.value == Some(WorldPayload(WorldModel(reply.value.observation)))
              && r.env.lastObservation == reply.value.observation
  {
    SendCommand(env, EnvOperation(agentId, targetId, INTERACT_CMDNAME, NoArg), len, reply)
  }

  /**
    `startSimulation` and `pauseSimulation`: one boolean exchange. The game's
    answer is passed on (a `null` answer stays `null`); an I/O failure is
    reported as `false`.
   */
  function SimulationSwitch(env: Env, req: Request, reply: Reply): (r: Step<Option<bool>>)
    requires req == StartSimulation || req == PauseSimulation
    requires Fits(reply, BooleanType)
    ensures r.env == env.(trace := env.trace + Exchange(req, reply))
    ensures r.result.Normal?
    ensures !reply.Delivered? ==> r.result.value == Some(false)
    ensures reply.Delivered? ==> r.result.value == reply.value.flag
  {
    var s := SendPackage(env, req, reply);
    match s.result
    case Thrown(_) => Step(s.env, Normal(Some(false)))
    case Normal(v) => Step(s.env, Normal(v.flag))
  }

  function StartSimulationCall(env: Env, reply: Reply): (r: Step<Option<bool>>)
    requires Fits(reply, BooleanType)
    ensures r.env.trace == env.trace + Exchange(StartSimulation, reply)
    ensures r.env == env.(trace := r.env.trace)
    ensures !reply.Delivered? ==> r.result == Normal(Some(false))
    ensures reply.Delivered? ==> r.result == Normal(reply.value.flag)
  {
    SimulationSwitch(env, StartSimulation, reply)
  }

  function PauseSimulationCall(env: Env, reply: Reply): (r: Step<Option<bool>>)
    requires Fits(reply, BooleanType)
    ensures r.env.trace == env.trace + Exchange(PauseSimulation, reply)
    ensures r.env == env.(trace := r.env.trace)
    ensures !reply.Delivered? ==> r.result == Normal(Some(false))
    ensures reply.Delivered? ==> r.result == Normal(reply.value.flag)
  {
    SimulationSwitch(env, PauseSimulation, reply)
  }

  /** `updateHazards`: unsupported; it throws without touching the socket. */
  function UpdateHazards(env: Env): (r: Step<bool>)
    ensures r.env == env && r.result == Thrown(UnsupportedOperationException)
  {
    Step(env, Thrown(UnsupportedOperationException))
  }

  /**
    `close`: send a disconnect request and return the game's acknowledgement.
    The socket is closed only when the game acknowledges; an I/O failure
    yields `false` and leaves the socket open. A `null` acknowledgement fails
    when it is unboxed.
   */
  function Close(env: Env, reply: Reply): (r: Step<bool>)
    requires Fits(reply, BooleanType)
    ensures r.env.trace == env.trace + Exchange(Disconnect, reply)
    ensures r.env.config == env.config && r.env.navMesh == env.navMesh
    ensures r.env.lastObservation == env.lastObservation
    ensures !reply.Delivered? ==> r.result == Normal(false) && r.env.socketOpen == env.socketOpen
    ensures reply.Delivered? && reply.value.flag.Some? ==>
              r.result == Normal(reply.value.flag.value)
    ensures reply.Delivered? && reply.value.flag.None? ==> r.result == Thrown(NullPointerException)
    ensures r.result == Normal(true) ==> !r.env.socketOpen
    ensures r.env.socketOpen != env.socketOpen ==> r.result == Normal(true)
    ensures Paired(env.trace) ==> Paired(r.env.trace)
  {
    var s := SendPackage(env, Disconnect, reply);
    match s.result
    case Thrown(_) => Step(s.env, Normal(false))
    case Normal(v) =>
      match v.flag
      case None => Step(s.env, Thrown(NullPointerException))
      case Some(success) =>
        if success then Step(s.env.(socketOpen := false), Normal(true))
        else Step(s.env, Normal(false))
  }

  /** `closeAndThrow`: `close`, and an `InterruptedException` exactly when it returns `false`. */
  function CloseAndThrow(env: Env, reply: Reply): (r: Step<()>)
    requires Fits(reply, BooleanType)
    ensures r.env == Close(env, reply).env
    ensures r.result == Thrown(InterruptedException) <==> Close(env, reply).result == Normal(false)
    ensures r.result.Normal? <==> Close(env, reply).result == Normal(true)
    ensures Close(env, reply).result.Thrown? ==> r.result == Thrown(Close(env, reply).result.exc)
  {
    var c := Close(env, reply);
    match c.result
    case Normal(success) => if success then Step(c.env, Normal(())) else Step(c.env, Thrown(InterruptedException))
    case Thrown(e) => Step(c.env, Thrown(e))
  }
}

=== FILE: geometry.dfy ===
/**
  Three-dimensional vectors over the reals, standing in for the framework's
  single-precision `Vec3`. The Euclidean length needs a square root, which the
  reals of the verifier do not provide, so every operation that measures a
  vector takes the length function as a parameter constrained by `IsLength`.
 */
module Geometry {

  datatype Vec3 = Vec3(x: real, y: real, z: real)

  function Add(a: Vec3, b: Vec3): Vec3 {
    Vec3(a.x + b.x, a.y + b.y, a.z + b.z)
  }

  function Sub(a: Vec3, b: Vec3): Vec3 {
    Vec3(a.x - b.x, a.y - b.y, a.z - b.z)
  }

  function Scale(a: Vec3, k: real): Vec3 {
    Vec3(a.x * k, a.y * k, a.z * k)
  }

  function Dot(a: Vec3, b: Vec3): real {
    a.x * b.x + a.y * b.y + a.z * b.z
  }

  /** `len` is a Euclidean length: non-negative, and its square is the dot product. */
  ghost predicate IsLength(len: Vec3 -> real) {
    forall v :: len(v) >= 0.0 && len(v) * len(v) == Dot(v, v)
  }

  /** `Vec3.normalized`: the vector divided by its length. */
  function Normalized(a: Vec3, len: Vec3 -> real): Vec3
    requires len(a) != 0.0
  {
    Scale(a, 1.0 / len(a))
  }

  /** Adding a displacement and taking it away again gives the displacement back. */
  lemma AddThenSub(a: Vec3, d: Vec3)
    ensures Sub(Add(a, d), a) == d
  {
  }

  lemma DotScale(a: Vec3, k: real)
    ensures Dot(Scale(a, k), Scale(a, k)) == k * k * Dot(a, a)
  {
    calc {
      Dot(Scale(a, k), Scale(a, k));
      (a.x * k) * (a.x * k) + (a.y * k) * (a.y * k) + (a.z * k) * (a.z * k);
      k * k * (a.x * a.x + a.y * a.y + a.z * a.z);
    }
  }

  /** A non-negative real whose square is `c * c` (with `c >= 0`) is `c`. */
  lemma UniqueRoot(r: real, c: real)
    requires r >= 0.0 && c >= 0.0 && r * r == c * c
    ensures r == c
  {
    if r < c {
      SquareStrictlyMonotone(r, c);
    } else if c < r {
      SquareStrictlyMonotone(c, r);
    }
  }

  lemma SquareStrictlyMonotone(a: real, b: real)
    requires 0.0 <= a < b
    ensures a * a < b * b
  {
    var d, e := b - a, b + a;
    assert d > 0.0 && e > 0.0;
    assert d * e > 0.0;
    assert d * e == b * b - a * a;
  }

  /**
    Scaling a vector of non-zero length `l` by `s / l` (with `s >= 0`) gives a
    vector of length exactly `s`.
   */
  lemma ScaledToLength(a: Vec3, s: real, len: Vec3 -> real)
    requires IsLength(len)
    requires len(a) != 0.0 && s >= 0.0
    ensures len(Scale(Normalized(a, len), s)) == s
  {
    var l := len(a);
    NormalizedThenScaled(a, s, l);
    LengthSquared(len, a);
    ScaledDot(a, s, l);
    LengthOfSquare(len, Scale(a, s / l), s);
  }

  lemma NormalizedThenScaled(a: Vec3, s: real, l: real)
    requires l != 0.0
    ensures Scale(Scale(a, 1.0 / l), s) == Scale(a, s / l)
  {
    ScaleScale(a, 1.0 / l, s);
    assert (1.0 / l) * s == s / l;
  }

  lemma LengthSquared(len: Vec3 -> real, a: Vec3)
    requires IsLength(len)
    ensures len(a) * len(a) == Dot(a, a)
  {
  }

  lemma ScaledDot(a: Vec3, s: real, l: real)
    requires l != 0.0 && l * l == Dot(a, a)
    ensures Dot(Scale(a, s / l), Scale(a, s / l)) == s * s
  {
    DotScale(a, s / l);
    QuotientSquare(s, l);
  }

  /** A vector whose dot product with itself is `s * s`, with `s >= 0`, has length `s`. */
  lemma LengthOfSquare(len: Vec3 -> real, v: Vec3, s: real)
    requires IsLength(len)
    requires s >= 0.0 && Dot(v, v) == s * s
    ensures len(v) == s
  {
    var lv := len(v);
    assert lv >= 0.0 && lv * lv == Dot(v, v);
    UniqueRoot(lv, s);
  }

  lemma ScaleScale(a: Vec3, j: real, k: real)
    ensures Scale(Scale(a, j), k) == Scale(a, j * k)
  {
  }

  lemma QuotientSquare(s: real, l: real)
    requires l != 0.0
    ensures (s / l) * (s / l) * (l * l) == s * s
  {
    var q := s / l;
    assert q * l == s;
    assert q * q * (l * l) == (q * l) * (q * l);
  }
}

=== FILE: lang.dfy ===
/**
  Shared vocabulary of the Java runtime: nullable references, the exceptions
  the modelled code raises or lets through, the 32-bit `int`, and the
  string pair (`Pair<String,String>`) that links switches to doors.
 */
module Lang {

  /** A Java reference that may be `null`. */
  datatype Option<+T> = None | Some(value: T)

  /** The exception classes that matter to the modelled code. */
  datatype Exception =
    | IOException
    | IllegalArgumentException
    | NullPointerException
    | ClassCastException
    | UnsupportedOperationException
    | InterruptedException
    | IndexOutOfBoundsException
    | NoSuchElementException
    | InvalidPathException
      /** The framework error raised when the world cannot be loaded. */
    | Iv4xrError
      /** Whatever `Util.verifyPath` raises for a level file it rejects. */
    | LevelFileRejected
      /** A `Throwable` that is not an `Exception` (a `java.lang.Error`). */
    | JavaError

  /** How a Java call ends: it returns a value or it throws. */
  datatype Outcome<+T> = Normal(value: T) | Thrown(exc: Exception)

  /** A `Pair<String,String>`: a (switch, door) link or a reported relation. */
  datatype Pair = Pair(fst: string, snd: string)

  const INT32_MIN: int := -0x8000_0000
  const INT32_MAX: int := 0x7fff_ffff

  newtype int32 = x: int | -0x8000_0000 <= x < 0x8000_0000

  /** Two's-complement truncation of an integer to 32 bits. */
  function Wrap32(x: int): (r: int32)
    ensures INT32_MIN <= x <= INT32_MAX ==> r as int == x
    ensures (r as int - x) % 0x1_0000_0000 == 0
  {
    var m := x % 0x1_0000_0000;
    if m < 0x8000_0000 then m as int32 else (m - 0x1_0000_0000) as int32
  }
}

=== FILE: paths.dfy ===
/**
  The part of the JDK's Unix file-system paths that `LabRecruitsConfig.useLevel`
  relies on: `Paths.get(first, more)` joins two strings with `/` and normalises
  the result (duplicate separators collapse, a trailing separator is dropped,
  a NUL character is rejected), and `toAbsolutePath` resolves a relative path
  against the working directory of the JVM.
 */
module Paths {
  import opened Lang

  const SEPARATOR: char := '/'
  const NUL: char := 0 as char

  predicate NoDoubleSeparator(s: string) {
    forall i :: 0 <= i < |s| - 1 ==> !(s[i] == SEPARATOR && s[i + 1] == SEPARATOR)
  }

  /** The shape of every path the JDK hands back. */
  predicate IsNormal(s: string) {
    NoDoubleSeparator(s) && (|s| > 1 ==> s[|s| - 1] != SEPARATOR)
  }

  predicate IsAbsolute(s: string) {
    |s| > 0 && s[0] == SEPARATOR
  }

  predicate EndsWith(s: string, suffix: string) {
    |suffix| <= |s| && s[|s| - |suffix|..] == suffix
  }

  /** The characters of `s` other than the separator, in order. */
  function Unseparated(s: string): string {
    if |s| == 0 then ""
    else (if s[0] == SEPARATOR then "" else [s[0]]) + Unseparated(s[1..])
  }

  /** Collapses every run of separators to one separator. */
  function Collapse(s: string): string
    decreases |s|
  {
    if |s| <= 1 then s
    else if s[0] == SEPARATOR && s[1] == SEPARATOR then Collapse(s[1..])
    else [s[0]] + Collapse(s[1..])
  }

  /**
    A collapsed path has no run of separators, begins and ends with the same
    characters as the original, and keeps every other character in order.
   */
  lemma {:induction false} CollapseFacts(s: string)
    ensures NoDoubleSeparator(Collapse(s))
    ensures |s| > 0 ==> |Collapse(s)| > 0 && Collapse(s)[0] == s[0]
                        && Collapse(s)[|Collapse(s)| - 1] == s[|s| - 1]
    ensures Unseparated(Collapse(s)) == Unseparated(s)
    decreases |s|
  {
    if |s| > 1 {
      var tail := Collapse(s[1..]);
      CollapseFacts(s[1..]);
      if s[0] == SEPARATOR && s[1] == SEPARATOR {
        assert Unseparated(s) == Unseparated(s[1..]);
      } else {
        var r := [s[0]] + tail;
        assert r[1..] == tail;
        NoDoubleAcrossSeam([s[0]], tail);
      }
    }
  }

  /** Drops one trailing separator, keeping the root path `/`. */
  function StripTrailing(s: string): string {
    if |s| > 1 && s[|s| - 1] == SEPARATOR then s[..|s| - 1] else s
  }

  /**
    `UnixPath.normalizeAndCheck`: rejects a NUL character, otherwise returns the
    normal form of the path.
   */
  function Normalize(s: string): (r: Outcome<string>)
    ensures r.Thrown? <==> NUL in s
    ensures r.Thrown? ==> r.exc == InvalidPathException
    ensures r.Normal? ==> IsNormal(r.value) && NUL !in r.value
    ensures r.Normal? ==> Unseparated(r.value) == Unseparated(s)
    ensures r.Normal? ==> (IsAbsolute(r.value) <==> IsAbsolute(s))
  {
    if NUL in s then Thrown(InvalidPathException)
    else
      CollapseFacts(s);
      StripTrailingFacts(Collapse(s));
      UnseparatedKeepsChars(s, NUL);
      Normal(StripTrailing(Collapse(s)))
  }

  lemma StripTrailingFacts(c: string)
    requires NoDoubleSeparator(c)
    ensures IsNormal(StripTrailing(c))
    ensures Unseparated(StripTrailing(c)) == Unseparated(c)
    ensures NUL in StripTrailing(c) ==> NUL in Unseparated(c)
  {
    StripTrailingNormal(c);
    StripTrailingKeepsChars(c);
    UnseparatedKeepsChars(c, NUL);
  }

  lemma StripTrailingNormal(c: string)
    requires NoDoubleSeparator(c)
    ensures IsNormal(StripTrailing(c))
  {
    var r := StripTrailing(c);
    if r != c {
      assert forall i :: 0 <= i < |r| ==> r[i] == c[i];
      if |r| > 1 {
        assert r[|r| - 1] == c[|c| - 2];
      }
    }
  }

  lemma StripTrailingKeepsChars(c: string)
    ensures Unseparated(StripTrailing(c)) == Unseparated(c)
    ensures NUL in StripTrailing(c) ==> NUL in c
  {
    var r := StripTrailing(c);
    if r != c {
      assert c == r + [SEPARATOR];
      UnseparatedAppend(r, [SEPARATOR]);
    }
  }

  lemma UnseparatedKeepsChars(s: string, ch: char)
    requires ch != SEPARATOR
    ensures ch in Unseparated(s) <==> ch in s
  {
    if |s| > 0 {
      UnseparatedKeepsChars(s[1..], ch);
      assert s == [s[0]] + s[1..];
    }
  }

  lemma UnseparatedAppend(a: string, b: string)
    ensures Unseparated(a + b) == Unseparated(a) + Unseparated(b)
  {
    if |a| > 0 {
      var h := if a[0] == SEPARATOR then "" else [a[0]];
      assert (a + b)[0] == a[0];
      assert (a + b)[1..] == a[1..] + b;
      UnseparatedAppend(a[1..], b);
      calc {
        Unseparated(a + b);
        h + Unseparated(a[1..] + b);
        h + (Unseparated(a[1..]) + Unseparated(b));
        (h + Unseparated(a[1..])) + Unseparated(b);
        Unseparated(a) + Unseparated(b);
      }
    } else {
      assert a + b == b;
    }
  }

  /** A path with no run of separators is left alone by `Collapse`. */
  lemma {:induction false} CollapseKeepsSingle(s: string)
    requires NoDoubleSeparator(s)
    ensures Collapse(s) == s
    decreases |s|
  {
    if |s| > 1 {
      assert NoDoubleSeparator(s[1..]);
      CollapseKeepsSingle(s[1..]);
      assert [s[0]] + s[1..] == s;
    }
  }

  /** Normalising a path already in normal form gives it back unchanged. */
  lemma NormalizeFixpoint(s: string)
    requires IsNormal(s) && NUL !in s
    ensures Normalize(s) == Normal(s)
  {
    CollapseKeepsSingle(s);
  }

  /** `Normalize` is idempotent. */
  lemma NormalizeIdempotent(s: string)
    requires Normalize(s).Normal?
    ensures Normalize(Normalize(s).value) == Normalize(s)
  {
    NormalizeFixpoint(Normalize(s).value);
  }

  /**
    Collapsing distributes over concatenation when no separator run straddles
    the seam.
   */
  lemma {:induction false} CollapseAppend(u: string, t: string)
    requires |u| > 0
    requires !(u[|u| - 1] == SEPARATOR && |t| > 0 && t[0] == SEPARATOR)
    ensures Collapse(u + t) == Collapse(u) + Collapse(t)
    decreases |u|
  {
    if |t| == 0 {
      assert u + t == u;
    } else if |u| == 1 {
      assert (u + t)[1..] == t;
    } else {
      assert (u + t)[1..] == u[1..] + t;
      CollapseAppend(u[1..], t);
    }
  }

  /** `Paths.get(first, more)` with one further segment. */
  function Get(first: string, more: string): (r: Outcome<string>)
    ensures r.Thrown? <==> NUL in first || NUL in more
    ensures r.Thrown? ==> r.exc == InvalidPathException
    ensures r.Normal? ==> IsNormal(r.value)
    ensures r.Normal? ==> (IsAbsolute(r.value) <==> IsAbsolute(if first == "" then more else first))
  {
    var raw :=
      if more == "" then first
      else if first == "" then more
      else first + [SEPARATOR] + more;
    assert NUL in raw <==> NUL in first || NUL in more;
    Normalize(raw)
  }

  /**
    `Paths.get` loses no character of either part: up to separators the
    joined path is `first` followed by `more`.
   */
  lemma {:induction false} GetKeepsParts(first: string, more: string)
    requires NUL !in first && NUL !in more
    ensures Unseparated(Get(first, more).value) == Unseparated(first) + Unseparated(more)
  {
    var raw :=
      if more == "" then first
      else if first == "" then more
      else first + [SEPARATOR] + more;
    assert Unseparated(raw) == Unseparated(first) + Unseparated(more) by {
      if more == "" {
        assert first + more == first;
      } else if first == "" {
        assert first + more == more;
      } else {
        UnseparatedAppend(first, [SEPARATOR]);
        UnseparatedAppend(first + [SEPARATOR], more);
      }
    }
  }

  /**
    Joining a normal folder that is neither empty nor the root with a relative,
    normal, non-empty name needs no normalising: the path is the folder, a
    separator and the name, character for character.
   */
  lemma {:induction false} GetJoinsNormal(first: string, more: string)
    requires IsNormal(first) && first != "" && first != [SEPARATOR]
    requires IsNormal(more) && more != "" && !IsAbsolute(more)
    requires NUL !in first && NUL !in more
    ensures Get(first, more) == Normal(first + [SEPARATOR] + more)
  {
    var raw := first + [SEPARATOR] + more;
    NoDoubleAcrossSeam(first, [SEPARATOR]);
    NoDoubleAcrossSeam(first + [SEPARATOR], more);
    assert raw[|raw| - 1] == more[|more| - 1];
    NormalizeFixpoint(raw);
  }

  /** `UnixPath.resolve` of a relative child against a non-empty base. */
  function Resolve(base: string, child: string): string {
    if |child| == 0 then base
    else if base == [SEPARATOR] then [SEPARATOR] + child
    else base + [SEPARATOR] + child
  }

  lemma NoDoubleAcrossSeam(a: string, b: string)
    requires NoDoubleSeparator(a) && NoDoubleSeparator(b)
    requires |a| == 0 || |b| == 0 || a[|a| - 1] != SEPARATOR || b[0] != SEPARATOR
    ensures NoDoubleSeparator(a + b)
  {
    var s := a + b;
    forall i | 0 <= i < |s| - 1
      ensures !(s[i] == SEPARATOR && s[i + 1] == SEPARATOR)
    {
      if i + 1 < |a| {
        assert s[i] == a[i] && s[i + 1] == a[i + 1];
      } else if i >= |a| {
        assert s[i] == b[i - |a|] && s[i + 1] == b[i + 1 - |a|];
      }
    }
  }

  /**
    `Path.toAbsolutePath().toString()`: an absolute path is kept, a relative
    one is resolved against the working directory `cwd`, which the JVM keeps
    absolute and normal. The result is always absolute and normal.
   */
  function ToAbsolute(cwd: string, p: string): (r: string)
    requires IsAbsolute(cwd) && IsNormal(cwd)
    requires IsNormal(p)
    ensures IsAbsolute(r) && IsNormal(r)
    ensures IsAbsolute(p) ==> r == p
    ensures p == "" ==> r == cwd
    ensures !IsAbsolute(p) && p != "" ==>
              r == (if cwd == [SEPARATOR] then "" else cwd) + [SEPARATOR] + p
  {
    if IsAbsolute(p) then p
    else
      ResolveIsNormal(cwd, p);
      assert p != "" && cwd == [SEPARATOR] ==> Resolve(cwd, p) == "" + [SEPARATOR] + p;
      Resolve(cwd, p)
  }

  /**
    Up to separators, the absolute form of `p` is the working directory
    (unless `p` is already absolute) followed by `p`.
   */
  lemma {:induction false} ToAbsoluteKeepsParts(cwd: string, p: string)
    requires IsAbsolute(cwd) && IsNormal(cwd)
    requires IsNormal(p)
    ensures Unseparated(ToAbsolute(cwd, p)) == (if IsAbsolute(p) then "" else Unseparated(cwd)) + Unseparated(p)
  {
    if !IsAbsolute(p) {
      if p == "" {
        assert Unseparated(cwd) + Unseparated(p) == Unseparated(cwd);
      } else {
        ResolveUnseparated(cwd, p);
      }
    }
  }

  lemma {:induction false} ResolveUnseparated(cwd: string, p: string)
    requires IsAbsolute(cwd) && p != ""
    ensures Unseparated(Resolve(cwd, p)) == Unseparated(cwd) + Unseparated(p)
  {
    var slashP := [SEPARATOR] + p;
    assert Unseparated(slashP) == Unseparated(p) by {
      assert slashP[1..] == p;
    }
    if cwd == [SEPARATOR] {
      assert Unseparated(cwd) == "" by {
        assert cwd[1..] == [];
      }
      assert Resolve(cwd, p) == slashP;
    } else {
      assert Resolve(cwd, p) == cwd + slashP;
      UnseparatedAppend(cwd, slashP);
    }
  }

  lemma ResolveIsNormal(cwd: string, p: string)
    requires IsAbsolute(cwd) && IsNormal(cwd)
    requires IsNormal(p) && !IsAbsolute(p)
    ensures IsAbsolute(Resolve(cwd, p)) && IsNormal(Resolve(cwd, p))
  {
    if |p| > 0 {
      if cwd == [SEPARATOR] {
        NoDoubleAcrossSeam([SEPARATOR], p);
      } else {
        NoDoubleAcrossSeam(cwd, [SEPARATOR]);
        NoDoubleAcrossSeam(cwd + [SEPARATOR], p);
      }
    }
  }

  /**
    Joining a folder and a file name with no separator in it yields a normal
    path that is either the file name alone (empty folder) or ends with
    `/file`.
   */
  lemma GetFileInFolder(folder: string, file: string)
    requires |file| > 0 && SEPARATOR !in file
    requires NUL !in folder && NUL !in file
    ensures Get(folder, file).Normal?
    ensures var p := Get(folder, file).value;
      if folder == "" then p == file else EndsWith(p, [SEPARATOR] + file)
  {
    if folder == "" {
      NormalizeFixpoint(file);
    } else {
      JoinNormalizes(folder, file);
      JoinEndsWithFile(folder, file);
    }
  }

  /** Normalising `folder/file` collapses the folder part and keeps the file name. */
  lemma JoinNormalizes(folder: string, file: string)
    requires folder != "" && |file| > 0 && SEPARATOR !in file
    requires NUL !in folder && NUL !in file
    ensures Normalize(folder + [SEPARATOR] + file) == Normal(Collapse(folder + [SEPARATOR]) + file)
  {
    var u := folder + [SEPARATOR];
    var p := Collapse(u) + file;
    assert folder + [SEPARATOR] + file == u + file;
    assert NUL !in u + file;
    assert Collapse(u + file) == p by {
      CollapseKeepsSingle(file);
      CollapseAppend(u, file);
    }
    assert p[|p| - 1] == file[|file| - 1];
  }

  lemma JoinEndsWithFile(folder: string, file: string)
    requires folder != ""
    ensures EndsWith(Collapse(folder + [SEPARATOR]) + file, [SEPARATOR] + file)
  {
    var c := Collapse(folder + [SEPARATOR]);
    CollapseFacts(folder + [SEPARATOR]);
    var p := c + file;
    assert p[|p| - |file| - 1..] == [SEPARATOR] + file;
  }

  lemma ResolveKeepsSuffix(cwd: string, p: string, suffix: string)
    requires |cwd| > 0 && |p| > 0
    requires EndsWith(p, suffix)
    ensures EndsWith(Resolve(cwd, p), suffix)
  {
    var r := Resolve(cwd, p);
    var prefix := if cwd == [SEPARATOR] then [SEPARATOR] else cwd + [SEPARATOR];
    assert r == prefix + p;
    assert r[|r| - |suffix|..] == p[|p| - |suffix|..];
  }

  /**
    The absolute path of a file `file` (no separator in it) inside `folder`
    ends with `/file`: the folder never swallows the file name.
   */
  lemma AbsoluteFileEndsWithName(cwd: string, folder: string, file: string)
    requires IsAbsolute(cwd) && IsNormal(cwd)
    requires |file| > 0 && SEPARATOR !in file
    requires NUL !in folder && NUL !in file
    ensures Get(folder, file).Normal?
    ensures EndsWith(ToAbsolute(cwd, Get(folder, file).value), [SEPARATOR] + file)
  {
    GetFileInFolder(folder, file);
    var p := Get(folder, file).value;
    var suffix := [SEPARATOR] + file;
    if !IsAbsolute(p) {
      if folder == "" {
        RelativeFileResolved(cwd, file);
      } else {
        ResolveKeepsSuffix(cwd, p, suffix);
      }
    }
  }

  lemma RelativeFileResolved(cwd: string, file: string)
    requires |cwd| > 0 && |file| > 0
    ensures EndsWith(Resolve(cwd, file), [SEPARATOR] + file)
  {
    var prefix := if cwd == [SEPARATOR] then [] else cwd;
    var r := Resolve(cwd, file);
    assert r == prefix + ([SEPARATOR] + file);
    assert r[|r| - |file| - 1..] == [SEPARATOR] + file;
  }

  /** The absolute form of `folder/file`. */
  function AbsoluteJoin(cwd: string, folder: string, file: string): string
    requires IsAbsolute(cwd) && IsNormal(cwd)
    requires NUL !in folder && NUL !in file
  {
    ToAbsolute(cwd, Get(folder, file).value)
  }

  /**
    Up to separators, the absolute form of `folder/file` is the working
    directory (unless the joined path is already absolute), then the folder,
    then the file: nothing of the folder is lost.
   */
  lemma {:induction false} AbsoluteJoinUnseparated(cwd: string, folder: string, file: string)
    requires IsAbsolute(cwd) && IsNormal(cwd)
    requires NUL !in folder && NUL !in file
    ensures var anchored := IsAbsolute(if folder == "" then file else folder);
      Unseparated(AbsoluteJoin(cwd, folder, file))
        == (if anchored then "" else Unseparated(cwd)) + Unseparated(folder) + Unseparated(file)
  {
    var p := Get(folder, file).value;
    var front := if IsAbsolute(p) then "" else Unseparated(cwd);
    GetKeepsParts(folder, file);
    ToAbsoluteKeepsParts(cwd, p);
    AppendAssoc(front, Unseparated(folder), Unseparated(file));
  }

  /** The file name alone, normal and relative, resolves against the working directory. */
  lemma AbsoluteJoinEmptyFolder(cwd: string, file: string)
    requires IsAbsolute(cwd) && IsNormal(cwd)
    requires file != "" && SEPARATOR !in file && NUL !in file
    ensures AbsoluteJoin(cwd, "", file) == (if cwd == [SEPARATOR] then "" else cwd) + [SEPARATOR] + file
  {
    assert IsNormal(file);
    NormalizeFixpoint(file);
    assert Get("", file) == Normal(file);
  }

  /** In the root folder the file sits right under the root. */
  lemma AbsoluteJoinRootFolder(cwd: string, file: string)
    requires IsAbsolute(cwd) && IsNormal(cwd)
    requires file != "" && SEPARATOR !in file && NUL !in file
    ensures AbsoluteJoin(cwd, [SEPARATOR], file) == [SEPARATOR] + file
  {
    JoinNormalizes([SEPARATOR], file);
    assert Collapse([SEPARATOR] + [SEPARATOR]) == [SEPARATOR];
  }

  /** A normal absolute folder other than the root: the folder, a separator and the file. */
  lemma {:induction false} AbsoluteJoinAbsoluteFolder(cwd: string, folder: string, file: string)
    requires IsAbsolute(cwd) && IsNormal(cwd)
    requires IsNormal(folder) && IsAbsolute(folder) && folder != [SEPARATOR] && NUL !in folder
    requires file != "" && SEPARATOR !in file && NUL !in file
    ensures AbsoluteJoin(cwd, folder, file) == folder + [SEPARATOR] + file
  {
    assert IsNormal(file);
    GetJoinsNormal(folder, file);
    var p := folder + [SEPARATOR] + file;
    assert p[0] == folder[0];
    assert ToAbsolute(cwd, p) == p;
  }

  /** A normal relative folder: resolved against the working directory, then a separator and the file. */
  lemma {:induction false} AbsoluteJoinRelativeFolder(cwd: string, folder: string, file: string)
    requires IsAbsolute(cwd) && IsNormal(cwd)
    requires IsNormal(folder) && folder != "" && !IsAbsolute(folder) && NUL !in folder
    requires file != "" && SEPARATOR !in file && NUL !in file
    ensures AbsoluteJoin(cwd, folder, file)
         == (if cwd == [SEPARATOR] then "" else cwd) + [SEPARATOR] + folder + [SEPARATOR] + file
  {
    assert IsNormal(file);
    GetJoinsNormal(folder, file);
    var p := folder + [SEPARATOR] + file;
    assert p[0] == folder[0];
    var base := if cwd == [SEPARATOR] then "" else cwd;
    AppendAssoc(base + [SEPARATOR], folder + [SEPARATOR], file);
    AppendAssoc(base + [SEPARATOR], folder, [SEPARATOR]);
  }

  lemma AppendAssoc(a: string, b: string, c: string)
    ensures a + (b + c) == a + b + c
  {
  }
}

=== FILE: qlist.dfy ===
/**
  `QArrayList`: an `ArrayList` with query-style combinators. A list is a
  sequence; every combinator returns a new sequence and leaves its receiver
  alone (a sequence value cannot change). The loops of the Java code are
  kept as loops where they carry the logic; sorting, de-duplication and
  filtering also have functional reference definitions the loops are proved
  to agree with.
 */
module QList {
  import opened Lang

  // ---------------------------------------------------------------------
  // Reference definitions

  /** The elements of `s` that satisfy `p`, in their original order. */
  function Filter<T>(p: T -> bool, s: seq<T>): (r: seq<T>)
    ensures |r| <= |s|
    ensures forall i :: 0 <= i < |r| ==> p(r[i])
    ensures multiset(r) <= multiset(s)
    ensures forall i :: 0 <= i < |s| && p(s[i]) ==> multiset(r)[s[i]] == multiset(s)[s[i]]
  {
    if |s| == 0 then []
    else
      var last := s[|s| - 1];
      assert s == s[..|s| - 1] + [last];
      Filter(p, s[..|s| - 1]) + (if p(last) then [last] else [])
  }

  lemma {:induction false} FilterAppend<T>(p: T -> bool, a: seq<T>, b: seq<T>)
    ensures Filter(p, a + b) == Filter(p, a) + Filter(p, b)
    decreases |b|
  {
    if |b| == 0 {
      assert a + b == a;
    } else {
      var last := b[|b| - 1];
      assert (a + b)[..|a + b| - 1] == a + b[..|b| - 1];
      FilterAppend(p, a, b[..|b| - 1]);
    }
  }

  /** The elements of `s` whose key is `k`, in their original order. */
  function WithKey<T>(s: seq<T>, key: T -> int, k: int): seq<T> {
    if |s| == 0 then []
    else (if key(s[0]) == k then [s[0]] else []) + WithKey(s[1..], key, k)
  }

  lemma WithKeyCons<T>(x: T, s: seq<T>, key: T -> int, k: int)
    ensures WithKey([x] + s, key, k) == (if key(x) == k then [x] else []) + WithKey(s, key, k)
  {
    assert ([x] + s)[1..] == s;
  }

  predicate SortedBy<T>(s: seq<T>, key: T -> int) {
    forall i, j :: 0 <= i < j < |s| ==> key(s[i]) <= key(s[j])
  }

  /** `r` lists the same elements as `s`, ordered by key, equal keys in the order of `s`. */
  ghost predicate IsStableSortOf<T>(r: seq<T>, s: seq<T>, key: T -> int) {
    SortedBy(r, key) && forall k :: WithKey(r, key, k) == WithKey(s, key, k)
  }

  predicate NoDuplicates<T(==)>(s: seq<T>) {
    forall i, j :: 0 <= i < j < |s| ==> s[i] != s[j]
  }

  function Reverse<T>(s: seq<T>): (r: seq<T>)
    ensures |r| == |s|
    ensures forall i :: 0 <= i < |s| ==> r[i] == s[|s| - 1 - i]
  {
    if |s| == 0 then [] else Reverse(s[1..]) + [s[0]]
  }

  /** Reversing twice gives the list back. */
  lemma ReverseInvolution<T>(s: seq<T>)
    ensures Reverse(Reverse(s)) == s
  {
  }

  // ---------------------------------------------------------------------
  // The combinators

  /** `FromPrimitives`: the values of an `int` array, boxed, in order. */
  method FromPrimitives(a: seq<int32>) returns (r: seq<int>)
    ensures |r| == |a|
    ensures forall i :: 0 <= i < |a| ==> r[i] == a[i] as int
  {
    r := [];
    for i := 0 to |a|
      invariant |r| == i
      invariant forall j :: 0 <= j < i ==> r[j] == a[j] as int
    {
      r := r + [a[i] as int];
    }
  }

  /** `select`: the image of every element under `f`, position by position. */
  method Select<T, A>(s: seq<T>, f: T -> A) returns (r: seq<A>)
    ensures |r| == |s|
    ensures forall i :: 0 <= i < |s| ==> r[i] == f(s[i])
  {
    r := [];
    for i := 0 to |s|
      invariant |r| == i
      invariant forall j :: 0 <= j < i ==> r[j] == f(s[j])
    {
      r := r + [f(s[i])];
    }
  }

  /**
    `where`: exactly the elements satisfying `p`, each as often as in `s`, in
    their original order.
   */
  method Where<T>(s: seq<T>, p: T -> bool) returns (r: seq<T>)
    ensures r == Filter(p, s)
  {
    r := [];
    for i := 0 to |s|
      invariant r == Filter(p, s[..i])
    {
      assert s[..i + 1][..i] == s[..i];
      if p(s[i]) {
        r := r + [s[i]];
      }
    }
    assert s[..|s|] == s;
  }

  /** `allTrue`: every element satisfies `p` (so an empty list gives `true`). */
  method AllTrue<T>(s: seq<T>, p: T -> bool) returns (b: bool)
    ensures b <==> forall i :: 0 <= i < |s| ==> p(s[i])
  {
    for i := 0 to |s|
      invariant forall j :: 0 <= j < i ==> p(s[j])
    {
      if !p(s[i]) {
        return false;
      }
    }
    return true;
  }

  /** `anyTrue`: some element satisfies `p` (so an empty list gives `false`). */
  method AnyTrue<T>(s: seq<T>, p: T -> bool) returns (b: bool)
    ensures b <==> exists i :: 0 <= i < |s| && p(s[i])
  {
    for i := 0 to |s|
      invariant forall j :: 0 <= j < i ==> !p(s[j])
    {
      if p(s[i]) {
        return true;
      }
    }
    return false;
  }

  /**
    `contains(Function)`: the same question as `anyTrue`, asked by a second
    loop; its contract is the same, so the two always agree.
   */
  method Contains<T>(s: seq<T>, p: T -> bool) returns (b: bool)
    ensures b <==> exists i :: 0 <= i < |s| && p(s[i])
  {
    for i := 0 to |s|
      invariant forall j :: 0 <= j < i ==> !p(s[j])
    {
      if p(s[i]) {
        return true;
      }
    }
    return false;
  }

  /** `first`: the element at index 0; an empty list is an `IndexOutOfBoundsException`. */
  function First<T>(s: seq<T>): (r: Outcome<T>)
    ensures r.Thrown? <==> |s| == 0
    ensures r.Thrown? ==> r.exc == IndexOutOfBoundsException
    ensures r.Normal? ==> r.value == s[0] && r.value in s
  {
    if |s| == 0 then Thrown(IndexOutOfBoundsException) else Normal(s[0])
  }

  /** `last`: the element at index `size - 1`; an empty list is an `IndexOutOfBoundsException`. */
  function Last<T>(s: seq<T>): (r: Outcome<T>)
    ensures r.Thrown? <==> |s| == 0
    ensures r.Thrown? ==> r.exc == IndexOutOfBoundsException
    ensures r.Normal? ==> r.value == s[|s| - 1] && r.value in s
  {
    if |s| == 0 then Thrown(IndexOutOfBoundsException) else Normal(s[|s| - 1])
  }

  /** The first element of the reversed list is the last element of the list. */
  lemma FirstOfReverseIsLast<T>(s: seq<T>)
    ensures First(Reverse(s)) == Last(s)
  {
  }

  /**
    `reversed`: a copy in reverse order, built by walking the indices from
    `size - 1` down to 0.
   */
  method Reversed<T>(s: seq<T>) returns (r: seq<T>)
    ensures r == Reverse(s)
  {
    r := [];
    var i := |s| - 1;
    while i >= 0
      invariant -1 <= i < |s|
      invariant |r| == |s| - 1 - i
      invariant forall j :: 0 <= j < |r| ==> r[j] == s[|s| - 1 - j]
      decreases i
    {
      r := r + [s[i]];
      i := i - 1;
    }
  }

  /**
    `Collections.max` over the keys: the greatest key; an empty list is a
    `NoSuchElementException`.
   */
  method Max<T>(s: seq<T>, key: T -> int) returns (r: Outcome<int>)
    ensures r.Thrown? <==> |s| == 0
    ensures r.Thrown? ==> r.exc == NoSuchElementException
    ensures r.Normal? ==> (exists i :: 0 <= i < |s| && key(s[i]) == r.value)
                          && forall i :: 0 <= i < |s| ==> key(s[i]) <= r.value
  {
    if |s| == 0 {
      return Thrown(NoSuchElementException);
    }
    var candidate := key(s[0]);
    var at := 0;
    for i := 1 to |s|
      invariant 0 <= at < i && key(s[at]) == candidate
      invariant forall j :: 0 <= j < i ==> key(s[j]) <= candidate
    {
      if key(s[i]) > candidate {
        candidate, at := key(s[i]), i;
      }
    }
    return Normal(candidate);
  }

  /**
    `Collections.min` over the keys: the least key; an empty list is a
    `NoSuchElementException`.
   */
  method Min<T>(s: seq<T>, key: T -> int) returns (r: Outcome<int>)
    ensures r.Thrown? <==> |s| == 0
    ensures r.Thrown? ==> r.exc == NoSuchElementException
    ensures r.Normal? ==> (exists i :: 0 <= i < |s| && key(s[i]) == r.value)
                          && forall i :: 0 <= i < |s| ==> r.value <= key(s[i])
  {
    if |s| == 0 {
      return Thrown(NoSuchElementException);
    }
    var candidate := key(s[0]);
    var at := 0;
    for i := 1 to |s|
      invariant 0 <= at < i && key(s[at]) == candidate
      invariant forall j :: 0 <= j < i ==> candidate <= key(s[j])
    {
      if key(s[i]) < candidate {
        candidate, at := key(s[i]), i;
      }
    }
    return Normal(candidate);
  }

  // ---------------------------------------------------------------------
  // orderBy

  /** Places `x` in front of the first element whose key is not smaller than its own. */
  function Insert<T>(x: T, t: seq<T>, key: T -> int): (r: seq<T>)
    ensures multiset(r) == multiset(t) + multiset{x}
  {
    if |t| == 0 then [x]
    else if key(x) <= key(t[0]) then [x] + t
    else
      assert t == [t[0]] + t[1..];
      [t[0]] + Insert(x, t[1..], key)
  }

  lemma {:induction false} InsertSorted<T>(x: T, t: seq<T>, key: T -> int)
    requires SortedBy(t, key)
    ensures SortedBy(Insert(x, t, key), key)
    ensures |Insert(x, t, key)| > 0
    ensures key(Insert(x, t, key)[0]) == if |t| > 0 && key(t[0]) < key(x) then key(t[0]) else key(x)
    decreases |t|
  {
    if |t| == 0 {
      assert Insert(x, t, key) == [x];
    } else if key(x) <= key(t[0]) {
      SortedCons(x, t, key);
    } else {
      var rest := Insert(x, t[1..], key);
      assert Insert(x, t, key) == [t[0]] + rest;
      assert SortedBy(t[1..], key);
      InsertSorted(x, t[1..], key);
      assert |t| > 1 ==> t[1..][0] == t[1];
      SortedCons(t[0], rest, key);
    }
  }

  /** Putting an element no greater than the head in front of a sorted list keeps it sorted. */
  lemma SortedCons<T>(h: T, t: seq<T>, key: T -> int)
    requires SortedBy(t, key)
    requires |t| > 0 ==> key(h) <= key(t[0])
    ensures SortedBy([h] + t, key)
  {
    var r := [h] + t;
    forall i, j | 0 <= i < j < |r|
      ensures key(r[i]) <= key(r[j])
    {
      assert r[j] == t[j - 1];
      if i > 0 {
        assert r[i] == t[i - 1];
      }
    }
  }

  lemma {:induction false} InsertWithKey<T>(x: T, t: seq<T>, key: T -> int, k: int)
    ensures WithKey(Insert(x, t, key), key, k)
         == (if key(x) == k then [x] else []) + WithKey(t, key, k)
    decreases |t|
  {
    if |t| == 0 {
      WithKeyCons(x, [], key, k);
      assert [x] + [] == [x];
    } else if key(x) <= key(t[0]) {
      WithKeyCons(x, t, key, k);
    } else {
      var rest := Insert(x, t[1..], key);
      var hx: seq<T> := if key(x) == k then [x] else [];
      var ht: seq<T> := if key(t[0]) == k then [t[0]] else [];
      var w := WithKey(t[1..], key, k);
      assert WithKey(Insert(x, t, key), key, k) == ht + (hx + w) by {
        assert Insert(x, t, key) == [t[0]] + rest;
        InsertWithKey(x, t[1..], key, k);
        WithKeyCons(t[0], rest, key, k);
      }
      assert WithKey(t, key, k) == ht + w by {
        assert [t[0]] + t[1..] == t;
        WithKeyCons(t[0], t[1..], key, k);
      }
      assert ht == [] || hx == [];
      assert ht + (hx + w) == hx + (ht + w);
    }
  }

  /**
    `orderBy`: the elements ordered by key, stably. `Collections.sort` is a
    stable sort, and a stable sort has exactly one possible result
    (`StableSortIsUnique`), so the insertion sort below computes the same list.
   */
  function OrderBy<T>(s: seq<T>, key: T -> int): (r: seq<T>)
    ensures |r| == |s|
    ensures multiset(r) == multiset(s)
    ensures SortedBy(r, key)
    ensures forall k :: WithKey(r, key, k) == WithKey(s, key, k)
  {
    if |s| == 0 then []
    else
      var sortedTail := OrderBy(s[1..], key);
      InsertSorted(s[0], sortedTail, key);
      InsertKeepsKeyOrder(s, sortedTail, key);
      Insert(s[0], sortedTail, key)
  }

  /** Inserting the head into a stable sort of the tail gives a stable sort of the whole. */
  lemma InsertKeepsKeyOrder<T>(s: seq<T>, sortedTail: seq<T>, key: T -> int)
    requires |s| > 0
    requires multiset(sortedTail) == multiset(s[1..])
    requires forall k :: WithKey(sortedTail, key, k) == WithKey(s[1..], key, k)
    ensures multiset(Insert(s[0], sortedTail, key)) == multiset(s)
    ensures |Insert(s[0], sortedTail, key)| == |s|
    ensures forall k :: WithKey(Insert(s[0], sortedTail, key), key, k) == WithKey(s, key, k)
  {
    var r := Insert(s[0], sortedTail, key);
    assert s == [s[0]] + s[1..];
    forall k
      ensures WithKey(r, key, k) == WithKey(s, key, k)
    {
      InsertWithKey(s[0], sortedTail, key, k);
      WithKeyCons(s[0], s[1..], key, k);
    }
    assert |r| == |multiset(r)| == |multiset(s)| == |s|;
  }

  lemma WithKeyEmpty<T>(s: seq<T>, key: T -> int, k: int)
    requires forall i :: 0 <= i < |s| ==> key(s[i]) != k
    ensures WithKey(s, key, k) == []
  {
    if |s| > 0 {
      WithKeyEmpty(s[1..], key, k);
    }
  }

  /**
    Two lists sorted by key that agree on the elements of every key, in
    order, are the same list: a stable sort has exactly one result.
   */
  lemma {:induction false} StableSortIsUnique<T>(r1: seq<T>, r2: seq<T>, key: T -> int)
    requires SortedBy(r1, key) && SortedBy(r2, key)
    requires forall k :: WithKey(r1, key, k) == WithKey(r2, key, k)
    ensures r1 == r2
    decreases |r1| + |r2|
  {
    if |r1| == 0 || |r2| == 0 {
      if |r1| > 0 {
        WithKeyCons(r1[0], r1[1..], key, key(r1[0]));
        assert [r1[0]] + r1[1..] == r1;
        WithKeyEmpty(r2, key, key(r1[0]));
      } else if |r2| > 0 {
        WithKeyCons(r2[0], r2[1..], key, key(r2[0]));
        assert [r2[0]] + r2[1..] == r2;
        WithKeyEmpty(r1, key, key(r2[0]));
      }
    } else {
      var a, b := r1[0], r2[0];
      assert r1 == [a] + r1[1..] && r2 == [b] + r2[1..];
      if key(a) < key(b) {
        WithKeyCons(a, r1[1..], key, key(a));
        WithKeyEmpty(r2, key, key(a));
      } else if key(b) < key(a) {
        WithKeyCons(b, r2[1..], key, key(b));
        WithKeyEmpty(r1, key, key(b));
      } else {
        forall k
          ensures WithKey(r1[1..], key, k) == WithKey(r2[1..], key, k)
        {
          WithKeyCons(a, r1[1..], key, k);
          WithKeyCons(b, r2[1..], key, k);
          assert WithKey([a] + r1[1..], key, k) == WithKey(r1, key, k) == WithKey(r2, key, k)
              == WithKey([b] + r2[1..], key, k);
          if key(a) == k {
            ConsInjective(a, WithKey(r1[1..], key, k), b, WithKey(r2[1..], key, k));
          } else {
            assert key(b) != k;
            assert [] + WithKey(r1[1..], key, k) == WithKey(r1[1..], key, k);
            assert [] + WithKey(r2[1..], key, k) == WithKey(r2[1..], key, k);
          }
        }
        WithKeyCons(a, r1[1..], key, key(a));
        WithKeyCons(b, r2[1..], key, key(a));
        ConsInjective(a, WithKey(r1[1..], key, key(a)), b, WithKey(r2[1..], key, key(a)));
        assert SortedBy(r1[1..], key) && SortedBy(r2[1..], key);
        StableSortIsUnique(r1[1..], r2[1..], key);
      }
    }
  }

  lemma ConsInjective<T>(a: T, x: seq<T>, b: T, y: seq<T>)
    requires [a] + x == [b] + y
    ensures a == b && x == y
  {
    assert ([a] + x)[0] == a && ([b] + y)[0] == b;
    assert ([a] + x)[1..] == x && ([b] + y)[1..] == y;
  }

  /** Any stable sort of `s` by `key` is `OrderBy(s, key)`. */
  lemma OrderByIsTheStableSort<T>(s: seq<T>, r: seq<T>, key: T -> int)
    requires IsStableSortOf(r, s, key)
    ensures r == OrderBy(s, key)
  {
    StableSortIsUnique(r, OrderBy(s, key), key);
  }

  // ---------------------------------------------------------------------
  // isDistinct

  /**
    `stream().distinct()`: the first occurrence of every element, in order.
   */
  function Distinct<T(==)>(s: seq<T>): (r: seq<T>)
    ensures forall i :: 0 <= i < |r| ==> r[i] in s
    ensures forall i :: 0 <= i < |s| ==> s[i] in r
    ensures NoDuplicates(r)
    ensures |r| <= |s|
    ensures |r| == |s| <==> NoDuplicates(s)
  {
    if |s| == 0 then []
    else
      var prefix := s[..|s| - 1];
      var last := s[|s| - 1];
      var d := Distinct(prefix);
      assert s == prefix + [last];
      if last in prefix then
        var i :| 0 <= i < |prefix| && prefix[i] == last;
        assert s[i] == s[|s| - 1];
        d
      else
        var r := d + [last];
        assert NoDuplicates(s) <==> NoDuplicates(prefix) by {
          if NoDuplicates(prefix) {
            forall i, j | 0 <= i < j < |s|
              ensures s[i] != s[j]
            {
              if j == |s| - 1 {
                assert s[i] in prefix;
              } else {
                assert s[i] == prefix[i] && s[j] == prefix[j];
              }
            }
          }
        }
        r
  }

  /** `isDistinct`: the list is as long as its de-duplicated stream. */
  function IsDistinct<T(==)>(s: seq<T>): (b: bool)
    ensures b <==> forall i, j :: 0 <= i < j < |s| ==> s[i] != s[j]
  {
    |s| == |Distinct(s)|
  }
}
